=== FILE: README.md ===
# Perfume store: stock, cart and order rules in Dafny

This project models the business rules of the perfume store's backend and
proves properties of them. It covers four parts:

- **Stock arithmetic on a perfume.** `isInStock` and the clamped
  `updateStock`.
- **The shopping cart.** The model-level `addItem`, `updateQuantity`,
  `removeItem`, `clearCart` and `getCartTotal`. The stock-checked request
  handlers `getCart`, `addToCart`, `updateCartItem`, `removeFromCart` and
  `clearCart`.
- **Checkout (`createOrder`).** The empty-list check, the per-line
  perfume and stock checks, the pricing (10% tax, shipping 10 unless the
  subtotal is above 100), the order number, the order row with its
  validators, and the writes: order lines, stock decrements, cart cleared.
- **The order lifecycle.** The seven statuses, `canBeCancelled`,
  `canBeRefunded` and `updateStatus`. The owner-scoped lookup of
  `getOrderById` and `cancelOrder`, the restock on cancellation, and the
  status whitelist of `updateOrderStatus`.

The database is plain state, `Store.Db`:
- a map of perfumes;
- the cart table as a sequence of rows, unique per (user, perfume);
- a map of orders, each holding its lines.

Every operation is a pure function from a state to a new state, or to an
error (`Results.Result`). `Store.Valid` collects the constraints every
stored row meets. The lemmas show that both checkouts (as written and
corrected), cancellation and status updates preserve it, and that each cart
handler keeps the cart free of duplicate rows and every row referring to a
stored perfume.

Modelling choices:
- **Money** is an exact `real`. The `DECIMAL(10,2)` columns, JavaScript
  floating point and `toFixed(2)` rounding are not modelled.
- **Ids** (UUIDs in the source) are `nat`. A cart row is addressed by its
  owner and perfume, which identify it uniquely.
- **Clock readings and the random suffix** of an order number are
  parameters. The checkout takes the finished order number, and
  `Checkout.PlaceOrderNumbered` relates it to the clock and the random
  value. The key the database assigns to a new order is a parameter too,
  and must be fresh.
- **The `createOrder` requests run one after the other.** Each is a single
  step from one state to the next.
- **Errors the source answers with HTTP 500** come in two kinds: a Sequelize
  validation error (`ValidationFailed`), and a null dereference or unique-key
  clash (`ServerError`). The corrected checkout refuses a line below one unit
  with a bad-request error of its own (`InvalidQuantity`, HTTP 400).

Files:
- `results.dfy`: `Option`, `Result` and the error kinds.
- `perfume.dfy`: `Catalog`, the perfume and its stock.
- `cart.dfy`: `CartModel`, the cart table and its model-level methods.
- `order_item.dfy`: `OrderItems`, the order line and its save hook.
- `inventory.dfy`: `Inventory`, stock movements over an order's lines.
- `order_number.dfy`: `OrderNumbers`, generating and reading back
  `ORD-<timestamp>-<ddd>`.
- `order.dfy`: `Orders`, the order record, the validators and the status
  methods.
- `store.dfy`: `Store`, the database and its constraints.
- `cart_controller.dfy`: `CartController`, the cart request handlers.
- `checkout.dfy`: `Checkout`, `createOrder` as written and corrected.
- `order_lifecycle.dfy`: `Lifecycle`, lookup, cancellation and status
  updates.

## Model

| member | source | states |
|---|---|---|
| Catalog.UpdateStock | backend/models/perfume.js:192-195 | The new stock is never negative. A non-negative delta on a non-negative stock adds exactly the delta. A decrement no larger than the stock removes exactly that much. A larger decrement leaves 0. No other column changes. |
| Catalog.InStockAfterUpdate | backend/models/perfume.js:181-193 | After `updateStock(q)` the perfume is in stock exactly when the old stock plus q is positive. |
| Catalog.StockNeverNegative | backend/models/perfume.js:88-95 | Any sequence of `updateStock` calls keeps a valid perfume valid (stock ≥ 0) and changes only its stock. |
| Catalog.UpdatesCompose | backend/models/perfume.js:193 | Two increments, or two decrements, in a row equal one update by their sum: successive clamps compose. |
| Catalog.DiscountPercentage | backend/models/perfume.js:185-190 | 0 when there is no original price or it is not above the price. Otherwise the saving as a percentage of the original, rounded half up. Between 0 and 100 for a valid perfume. |
| CartModel.Find | backend/models/cart.js:59-61 | A found index holds the (user, perfume) row; not found means no row matches. |
| CartModel.QuantityPositiveIffRow | backend/models/cart.js:26-47 | In a valid table a pair holds a positive quantity exactly when it has a row (rows have quantity ≥ 1 and are unique). |
| CartModel.AddItem | backend/models/cart.js:58-69 | Succeeds exactly when the merged quantity is at least 1 and either the pair already has a row or the perfume is stored. A result below 1 is a validation error. A new row for a perfume that is not stored fails the `perfumeId` foreign key (backend/models/cart.js:18-25), a server error. The pair's quantity grows by exactly the amount added. Every other pair keeps its quantity. The table stays unique and positive. |
| CartModel.UpdateQuantity | backend/models/cart.js:71-86 | Fails exactly when the pair has no row. A quantity of 0 or less deletes the row; any other quantity becomes the row's quantity. Other pairs are unchanged. |
| CartModel.RemoveItem | backend/models/cart.js:88-98 | `None` (null) exactly when there is no row. Otherwise the pair's row is gone and nothing else changes. |
| CartModel.ClearCart | backend/models/cart.js:100-104 | The result holds exactly the rows of other users, and stays valid. |
| CartModel.ClearCartQuantities | backend/models/cart.js:100-104 | After clearing user u, u holds nothing of any perfume and every other user holds what they held. |
| CartModel.CartTotal | backend/models/cart.js:106-118 | The live value of a user's cart, as intended, is non-negative for a valid table and catalog. |
| CartModel.CartTotalAsWritten | backend/models/cart.js:106-118 | As written, `getCartTotal` succeeds exactly when the include is accepted and the user has no row, and then gives 0. Any row of the user makes it a server error. |
| CartModel.CartTotalAsWrittenFailsAfterAdd | backend/models/cart.js:58-118 | After any successful `addItem` the as-written total is a server error, while the intended total rises by quantity × price. |
| CartModel.AddItemTotal | backend/models/cart.js:106-118 | A successful `addItem` of q units raises the user's `getCartTotal` by exactly q times the perfume's price. |
| CartModel.ClearedCartTotal | backend/models/cart.js:100-118 | A cleared cart is worth 0. |
| CartModel.StockedAfterChange | backend/models/cart.js:18-25 | A change confined to one (user, perfume) pair keeps every row's perfume reference valid. |
| CartModel.AddItemKeepsStocked | backend/models/cart.js:18-25 | A successful `addItem` keeps every row referring to a stored perfume. |
| OrderItems.Save | backend/models/orderItem.js:26-60 | Saves exactly when quantity ≥ 1 and the given prices are not negative; otherwise a validation error. A saved line has `totalPrice = quantity × unitPrice` ≥ 0, and nothing else changes. |
| OrderItems.SaveIdempotent | backend/models/orderItem.js:58-74 | Saving a saved line again changes nothing, and `calculateTotal()` equals the stored total. |
| OrderItems.SaveValid | backend/models/orderItem.js:58-60 | Saving a line that is already consistent returns it unchanged. |
| Inventory.RestockAdds | backend/controllers/orderController.js:287-292 | Restocking an order's lines adds to every existing perfume exactly the units ordered of it, skips missing perfumes, and changes nothing else. |
| Inventory.WithdrawClamps | backend/controllers/orderController.js:89-97 | The per-line clamped decrements leave each perfume at max(0, stock − units ordered of it); no other column changes. |
| Inventory.RestockUndoesWithdraw | backend/controllers/orderController.js:287-292 | When no perfume is ordered beyond its stock, restocking after withdrawing gives back the catalog exactly. |
| Inventory.WithdrawKeepsCatalogValid | backend/models/perfume.js:88-95 | Withdrawing keeps every perfume's validators satisfied. |
| OrderNumbers.DecimalRoundTrip | backend/controllers/orderController.js:70 | Reading back the decimal text of a clock reading gives the reading. |
| OrderNumbers.Format | backend/controllers/orderController.js:70-72 | A generated number has the shape `ORD-` digits `-` three digits. |
| OrderNumbers.Parse | backend/models/order.js:133-139 | Reads a number back exactly when it has that shape; the suffix is below 1000. |
| OrderNumbers.ParseFormat | backend/controllers/orderController.js:70-72 | Parsing a generated number recovers the clock reading and the zero-padded random value. |
| OrderNumbers.FormatInjective | backend/models/order.js:10-14 | Two generated numbers coincide only for the same clock reading and random value, the only way the unique number can clash. |
| OrderNumbers.AssignOrderNumber | backend/models/order.js:133-139 | The `beforeCreate` hook keeps a present number; for a missing or empty one it generates one that parses back to the clock reading and random value. |
| Orders.ParseStatus | backend/controllers/orderController.js:233-238 | Accepted text names the returned status; refused text names no status. |
| Orders.ParseStatusName | backend/models/order.js:23-34 | Every one of the seven status names is accepted as itself. |
| Orders.ParsePaymentMethod | backend/models/order.js:79-82 | A payment method is accepted exactly when it is one of the four enumerated values, and becomes the method of that name; any other text names no method. |
| Orders.ParsePaymentMethodName | backend/models/order.js:79-82 | Every method's name is accepted and read back as that method. |
| Orders.TrimEmptyIffBlank | backend/models/order.js:93-95 | `trim()` leaves nothing exactly when the text is all white space. |
| Orders.ValidAddressIff | backend/models/order.js:92-98 | The shipping-address validator accepts exactly the addresses whose street, city, postal code and country are present and not blank. |
| Orders.CreateRow | backend/controllers/orderController.js:74-87 | Created exactly when the shipping address is complete, the payment method is enumerated and no amount is negative. The row is pending and unpaid, has no lines, and its billing address defaults to the shipping address. It stores the shipping address, the named payment method and the notes as given (after the route's trimming), with no discount and no delivery or cancellation stamp or reason. |
| Orders.NeverCancellableAndRefundable | backend/models/order.js:160-166 | No order is both cancellable (pending or confirmed) and refundable (delivered and paid). |
| Orders.UpdateStatus | backend/models/order.js:168-179 | Always sets the status. Cancelling stamps `cancelledAt` and stores a truthy reason; delivering stamps `deliveredAt`. For any other status only the status changes. The order's validators stay satisfied. |
| Orders.CancelledIsFinal | backend/models/order.js:160-176 | A cancelled order is neither cancellable nor refundable. |
| Store.InsertKeepsNumbersUnique | backend/models/order.js:10-14 | Inserting an order whose number is not taken keeps order numbers unique. |
| CartController.AddToCart | backend/controllers/cartController.js:54-109 | Each error holds exactly in its case: a missing or inactive perfume, no stock, more than the stock after merging, a total below 1. It succeeds exactly when the perfume is active, in stock, and old + q lies between 1 and the stock. On success the pair holds old + q units and nothing else changes. |
| CartController.UpdateCartItem | backend/controllers/cartController.js:147-175 | Not found exactly when the row is not the caller's or is missing. A positive quantity on a row whose perfume is gone is a server error exactly then. It succeeds exactly when the caller's row exists and the quantity is 0 or less, or is within the stock of a stored perfume. A quantity of 0 or less deletes the row. A quantity above the stock is refused exactly then. Otherwise the row holds exactly the new quantity, at most the stock. Nothing else changes. |
| CartController.RemoveFromCart | backend/controllers/cartController.js:203-213 | Fails exactly when the row is not the caller's or missing; otherwise exactly that row goes. |
| CartController.GetCart | backend/controllers/cartController.js:8-24 | The loop computes the count (units) and total (units × current price) over the caller's rows whose perfume is active. |
| CartController.ListedTotalIsCartTotal | backend/controllers/cartController.js:18-20 | When all the caller's perfumes are active, `getCart`'s total equals the model's `getCartTotal`. |
| CartController.ClearedCartIsEmpty | backend/controllers/cartController.js:231-233 | After `clearCart` the caller's cart counts 0 units worth 0. |
| CartController.AddToCartKeepsReferences | backend/controllers/cartController.js:54-109 | A successful `addToCart` keeps every row referring to a stored perfume. |
| CartController.UpdateCartItemKeepsReferences | backend/controllers/cartController.js:147-175 | A successful `updateCartItem` keeps every row referring to a stored perfume. |
| CartController.RemoveFromCartKeepsReferences | backend/controllers/cartController.js:203-213 | A successful `removeFromCart` keeps every row referring to a stored perfume. |
| Checkout.CheckLines | backend/controllers/orderController.js:34-63 | Passes exactly when every line's perfume exists, is in stock and holds the quantity, each line checked on its own. Otherwise the error is that of the first failing line. Each order line carries the current price, price × quantity and a snapshot. |
| Checkout.Price | backend/controllers/orderController.js:65-68 | Tax is a tenth of the subtotal. Shipping is 0 exactly when the subtotal is above 100, else 10. The total is their sum. |
| Checkout.Prepare | backend/controllers/orderController.js:25-87 | Fails with the empty-order error exactly when `items` is absent or empty. It succeeds exactly when the request has lines, every line passes the checks, the row built from them passes its validators, and the number is free. The first failing line's error is the reply. The row is then pending and unpaid, priced from its lines, and billed to the shipping address by default. It carries the number it was given, which no stored order has. |
| Checkout.WriteItems | backend/controllers/orderController.js:89-97 | The write loop fails with a validation error exactly when some line fails its validators. The saved lines are the items before the first failing one, each as saved; only their clamped decrements are applied; the catalog keeps its perfumes. |
| Checkout.WriteItemsAllValid | backend/controllers/orderController.js:89-97 | With all lines valid the loop saves them all and applies every clamped decrement. |
| Checkout.PlaceOrderAsWritten | backend/controllers/orderController.js:25-99 | A request refused before the row is created writes nothing. A failure that did write is a validation error: the new order row stays stored and the cart is untouched. A success stores the order under the new key. |
| Checkout.PlaceOrderAsWrittenPartialWrites | backend/controllers/orderController.js:74-97 | Once the row is created, the order is stored with exactly the lines saved before the first failing one, and only those lines' stock is withdrawn. The reply is an error exactly when a line was not saved; the cart is cleared only on success. |
| Checkout.PlaceOrderAsWrittenKeepsValid | backend/controllers/orderController.js:74-99 | The as-written checkout keeps every database constraint, even when it fails half-way. |
| Checkout.ZeroQuantityLeavesOrphanOrder | backend/controllers/orderController.js:74-93 | As written, a first line of quantity 0 that passes the checks leaves an order with no lines behind an error reply. |
| Checkout.ZeroQuantityExample | backend/controllers/orderController.js:34-93 | A concrete database and request, at any clock reading, where that happens. |
| Checkout.PlaceOrder | backend/controllers/orderController.js:25-99 | The corrected checkout: any non-positive quantity is refused as a bad request before any write. The empty-order error holds exactly for an empty request. |
| Checkout.PrepareSucceeds | backend/controllers/orderController.js:25-87 | With positive quantities on a valid catalog, the checks pass exactly when the request has lines, each line's perfume is stored, in stock and holds the quantity, the address is complete, the payment method is known, and the number is free. Whether the perfume is active is not checked. |
| Checkout.CheckLinesIgnoresActive | backend/controllers/orderController.js:34-46 | Deactivating a perfume does not change whether a request's lines pass: checkout, unlike `addToCart`, accepts orders for inactive perfumes. |
| Checkout.PlaceOrderFailureWritesNothing | backend/controllers/orderController.js:25-46 | On a valid catalog, a failed checkout leaves the database exactly as it was. |
| Checkout.PlaceOrderWrites | backend/controllers/orderController.js:74-99 | A successful checkout stores the row with its lines, withdraws the lines' stock and clears the caller's cart, and does nothing else. |
| Checkout.PlaceOrderRecordsOrder | backend/controllers/orderController.js:65-87 | When the checks pass (`Checkout.PrepareSucceeds` says when) and every line asks for at least one unit, the checkout succeeds. The stored order belongs to the caller and is pending and unpaid, priced from its lines, with the given number. It keeps the shipping address, payment method and notes the customer sent, as trimmed by the route, bills the shipping address by default, and carries no discount and no delivery or cancellation stamp. No other order changes. |
| Checkout.PlaceOrderWithdrawsStock | backend/controllers/orderController.js:89-97 | When the checks pass, the checkout succeeds. Each perfume's stock becomes max(0, stock − units ordered of it), and the catalog keeps its perfumes. |
| Checkout.PlaceOrderNumbered | backend/controllers/orderController.js:70-72 | When the number is built from the clock reading and a random value below 1000, the stored order's number reads back as exactly those two. |
| Checkout.PlaceOrderClearsCart | backend/controllers/orderController.js:99 | After a success the caller holds nothing in the cart and every other user's cart is unchanged. |
| Checkout.PlaceOrderKeepsValid | backend/controllers/orderController.js:74-99 | Checkout keeps every database constraint: validators, the cart's uniqueness and references, unique order numbers. |
| Checkout.PlaceOrderRefusesUnavailable | backend/controllers/orderController.js:34-46 | A line that is not available makes the request fail with the first such line's error, and nothing is written. |
| Checkout.CheckedItemsValid | backend/controllers/orderController.js:48-62 | With positive quantities and valid prices, every built line passes its validators. |
| Checkout.PricingExample | backend/controllers/orderController.js:48-68 | Two at 30 and one at 15 give subtotal 75, tax 7.5, shipping 10, total 92.5. |
| Checkout.ShippingBoundary | backend/controllers/orderController.js:67 | A subtotal of exactly 100 pays shipping; 100.01 does not. |
| Checkout.DuplicateLinesOversell | backend/controllers/orderController.js:34-46 | Two lines of 3 against a stock of 5 both pass, and the clamped decrements leave 0 although 6 were ordered. |
| Checkout.ZeroQuantityRefusedWhenValidated | backend/controllers/orderController.js:25-46 | The corrected checkout refuses the zero-unit request as a bad request and writes nothing. |
| Lifecycle.FindOrder | backend/controllers/orderController.js:178-183 | An order is found exactly when it exists and the caller is an administrator or its owner. |
| Lifecycle.PlacedOrderFoundByOwner | backend/controllers/orderController.js:172-183 | A just-placed order is found by the customer who placed it and by any administrator, and by no other customer. |
| Lifecycle.CancelUsesFindOrder | backend/controllers/orderController.js:261-294 | `cancelOrder` answers not found exactly when the lookup finds nothing, and cancels the order the lookup finds. |
| Lifecycle.CancelOrder | backend/controllers/orderController.js:255-294 | Not found exactly when the order is missing or not visible. Refused exactly when it is not cancellable. It succeeds exactly when the order exists, is visible to the caller and is cancellable. On success the order is cancelled through `updateStatus`, other orders and the cart are unchanged, and the catalog keeps its perfumes. |
| Lifecycle.CancelRestocks | backend/controllers/orderController.js:287-292 | A cancellation adds to every existing perfume exactly the units the order held of it. |
| Lifecycle.CancelRefusedChangesNothing | backend/controllers/orderController.js:281-285 | Cancelling an order past the cancellable statuses is refused with nothing changed. |
| Lifecycle.SecondCancelRefused | backend/controllers/orderController.js:281-294 | Cancelling the same order a second time is refused. |
| Lifecycle.CancelKeepsValid | backend/controllers/orderController.js:287-294 | Cancellation keeps every database constraint. |
| Lifecycle.CancelUndoesPlaceOrder | backend/controllers/orderController.js:287-292 | Cancelling a just-placed order restores the catalog exactly, when no perfume was ordered beyond its stock. |
| Lifecycle.UpdateOrderStatus | backend/controllers/orderController.js:226-240 | Not found exactly for a missing order. Refused exactly for text naming no status. It succeeds exactly when the order exists and the text names a status; the order then becomes `updateStatus` of it with that status, the reason and the clock reading, and no stock moves, even for `cancelled`. |
| Lifecycle.UpdateOrderStatusKeepsValid | backend/controllers/orderController.js:240 | A status update keeps every database constraint. |

## Left out

- Express routing and the request validators. The validators reject bad
  input with 400 and change nothing. The `createOrder` route also trims the
  four shipping-address fields, the four billing-address fields and `notes`
  in place (backend/routes/orderRoutes.js:29-73). The model's request is the
  text after that trimming, so "as sent" below means as sent and trimmed.
  - `quantity = 1`, the default in `addToCart`, is not modelled: a quantity
    is always given.
  - The payment method `bank_transfer` passes the route validator but is not
    in the column's enumeration, so it fails at `Order.create`. This is
    modelled as a validation error like any unknown method.
- Authentication and JWTs: the caller's id and role are parameters.
- The admin controller, catalog queries, pagination and filtering:
  `getUserOrders`, `getAllOrders`, `Order.findByUser`, `Order.findByStatus`,
  `Order.getRevenueStats`, `Cart.findByUser`, `Perfume.findByCategory` and the
  like. Each is a database query with no rule of its own.
- Concurrency between requests: the window between the stock check and the
  decrement in `createOrder`, and the non-atomic sequence of writes. Each
  request is one sequential step.
- Floating point and `DECIMAL` storage:
  - `toFixed(2)` and `parseFloat` in `getCart`, and float accumulation of
    totals.
  - Postgres returns `DECIMAL` values as text, so the comparison in
    `getDiscountPercentage` may compare strings. The model compares numbers.
- Clock and randomness: `Date.now()`, `new Date()` and `Math.random()` are
  parameters.
- `Cart.getCartTotal` as written throws for any user with a cart row (see
  Findings). `CartModel.CartTotal` models the intended sum. Whether Sequelize
  accepts the include without the alias decides only what an empty cart
  gives; `CartModel.CartTotalAsWritten` takes that as a parameter.
- `Cart.addItem` defaults its own quantity to 1 (backend/models/cart.js:58).
  No handler calls `addItem`, so the model takes the quantity as an argument
  and has no default.
- The cart routes name the URL parameter `:perfumeId`, but the handlers
  read `req.params.id`. This is a routing mismatch outside the handlers. The
  model addresses a cart row by owner and perfume.
- The `beforeCreate` hook runs after Sequelize's validation, so a missing
  number would be rejected by `allowNull: false` before the hook could fill
  it. `createOrder` always passes a number, so `OrderNumbers.AssignOrderNumber`
  models the hook on its own.
- The response bodies (the order reloaded with its lines and perfumes, the
  user's public fields, the messages) carry no state change.
- Checkout.PlaceOrderAsWritten: a perfume deleted between the check and the
  decrement would be dereferenced as `null`. In a sequential model the perfume
  is always still there, so that path is not modelled.
- Checkout.PlaceOrderFailureWritesNothing and the other checkout lemmas
  assume a catalog whose prices are not negative, as the column validators
  guarantee for every stored perfume.

## Findings

| source | as written | input that shows it | evidently intended | confidence | as-written member | corrected member |
|---|---|---|---|---|---|---|
| backend/controllers/orderController.js:34-93 | Line quantities are never validated. The stock check `perfume.stock < item.quantity` passes for 0 (or a negative quantity), `Order.create` writes the order row, and only then does `OrderItem.create` fail the line's `min: 1` validator. The client gets a 500 and an order with no lines stays in the database. | One active perfume with stock 5; a request for 0 units of it with a complete address and `credit_card` | Quantities below 1 rejected with the rest of the request, before anything is written | not executed | Checkout.ZeroQuantityLeavesOrphanOrder | Checkout.PlaceOrderFailureWritesNothing |
| backend/models/cart.js:106-118 | `getCartTotal` reads `item.Perfume.price`, but the association is declared with the alias `perfume` (backend/models/index.js:51-54), so `item.Perfume` is undefined and the reduce throws for any cart that has a row. | Any user holding one cart row, for example right after a successful `addItem` | The sum of quantity × current price over the user's rows | not executed | CartModel.CartTotalAsWritten, shown by CartModel.CartTotalAsWrittenFailsAfterAdd | CartModel.CartTotal, with CartModel.AddItemTotal |

=== FILE: cart.dfy ===
/** The cart table: one row per (user, perfume) with a positive quantity,
    and the model-level operations `addItem`, `updateQuantity`,
    `removeItem`, `clearCart` and `getCartTotal`.

    Each operation is specified through `Quantity`, the view of the table
    as a function from (user, perfume) to the quantity held (0 when there
    is no row). */
module CartModel {
  import opened Results
  import Catalog

  type UserId = nat

  /** One row of the cart table. */
  datatype CartLine = CartLine(user: UserId, perfume: Catalog.PerfumeId, quantity: int)

  type Cart = seq<CartLine>

  predicate Matches(l: CartLine, u: UserId, p: Catalog.PerfumeId) {
    l.user == u && l.perfume == p
  }

  /** The table's constraints: every quantity is at least 1, and the unique
      index allows at most one row per (user, perfume). */
  predicate Valid(cart: Cart) {
    && (forall i :: 0 <= i < |cart| ==> cart[i].quantity >= 1)
    && (forall i, j :: 0 <= i < j < |cart| ==> !Matches(cart[j], cart[i].user, cart[i].perfume))
  }

  /** `findOne({ where: { userId, perfumeId } })`: the position of the first
      matching row. */
  function Find(cart: Cart, u: UserId, p: Catalog.PerfumeId): (r: Option<nat>)
    ensures r.Some? ==> r.value < |cart| && Matches(cart[r.value], u, p)
    ensures r.None? ==> forall i :: 0 <= i < |cart| ==> !Matches(cart[i], u, p)
    decreases |cart|
  {
    if |cart| == 0 then None
    else if Matches(cart[0], u, p) then Some(0)
    else
      match Find(cart[1..], u, p)
      case Some(i) => Some(i + 1)
      case None => None
  }

  /** The quantity user `u` holds of perfume `p`; 0 when there is no row. */
  function Quantity(cart: Cart, u: UserId, p: Catalog.PerfumeId): int
  {
    match Find(cart, u, p)
    case Some(i) => cart[i].quantity
    case None => 0
  }

  /** In a valid table a row's quantity is the quantity of its pair. */
  lemma QuantityAt(cart: Cart, i: int)
    requires Valid(cart) && 0 <= i < |cart|
    ensures Quantity(cart, cart[i].user, cart[i].perfume) == cart[i].quantity
  {
  }

  /** A pair without a row holds nothing. */
  lemma QuantityAbsent(cart: Cart, u: UserId, p: Catalog.PerfumeId)
    requires forall i :: 0 <= i < |cart| ==> !Matches(cart[i], u, p)
    ensures Quantity(cart, u, p) == 0
  {
  }

  /** In a valid table a pair holds a positive quantity exactly when it has
      a row. */
  lemma QuantityPositiveIffRow(cart: Cart, u: UserId, p: Catalog.PerfumeId)
    requires Valid(cart)
    ensures Quantity(cart, u, p) >= 0
    ensures Quantity(cart, u, p) > 0 <==> Find(cart, u, p).Some?
  {
  }

  /** `c2` holds the same quantity as `c1` for every pair except (u, p). */
  ghost predicate SameElsewhere(c1: Cart, c2: Cart, u: UserId, p: Catalog.PerfumeId) {
    forall u': UserId, p': Catalog.PerfumeId :: (u' != u || p' != p) ==> Quantity(c2, u', p') == Quantity(c1, u', p')
  }

  /** The table with row `i` given quantity `q`. */
  function SetAt(cart: Cart, i: int, q: int): (r: Cart)
    requires Valid(cart) && 0 <= i < |cart| && q >= 1
    ensures Valid(r)
    ensures Quantity(r, cart[i].user, cart[i].perfume) == q
    ensures SameElsewhere(cart, r, cart[i].user, cart[i].perfume)
  {
    var r := cart[i := cart[i].(quantity := q)];
    assert forall j :: 0 <= j < |r| ==> r[j].user == cart[j].user && r[j].perfume == cart[j].perfume;
    QuantityAt(r, i);
    forall u': UserId, p': Catalog.PerfumeId | u' != cart[i].user || p' != cart[i].perfume
      ensures Quantity(r, u', p') == Quantity(cart, u', p')
    {
      var f := Find(cart, u', p');
      if f.Some? {
        QuantityAt(cart, f.value);
        QuantityAt(r, f.value);
      } else {
        QuantityAbsent(r, u', p');
      }
    }
    r
  }

  /** The table with a new row for a pair that had none. */
  function Append(cart: Cart, l: CartLine): (r: Cart)
    requires Valid(cart) && l.quantity >= 1 && Find(cart, l.user, l.perfume).None?
    ensures Valid(r)
    ensures Quantity(r, l.user, l.perfume) == l.quantity
    ensures SameElsewhere(cart, r, l.user, l.perfume)
  {
    var r := cart + [l];
    QuantityAt(r, |cart|);
    forall u': UserId, p': Catalog.PerfumeId | u' != l.user || p' != l.perfume
      ensures Quantity(r, u', p') == Quantity(cart, u', p')
    {
      var f := Find(cart, u', p');
      if f.Some? {
        QuantityAt(cart, f.value);
        QuantityAt(r, f.value);
      } else {
        QuantityAbsent(r, u', p');
      }
    }
    r
  }

  /** The table without row `i`. */
  function RemoveAt(cart: Cart, i: int): (r: Cart)
    requires Valid(cart) && 0 <= i < |cart|
    ensures Valid(r)
    ensures Quantity(r, cart[i].user, cart[i].perfume) == 0
    ensures SameElsewhere(cart, r, cart[i].user, cart[i].perfume)
    ensures |r| == |cart| - 1
  {
    var r := cart[..i] + cart[i + 1..];
    assert forall j :: 0 <= j < i ==> r[j] == cart[j];
    assert forall j :: i <= j < |r| ==> r[j] == cart[j + 1];
    forall j | 0 <= j < |r|
      ensures !Matches(r[j], cart[i].user, cart[i].perfume)
    {
      if j >= i {
        assert r[j] == cart[j + 1];
      }
    }
    QuantityAbsent(r, cart[i].user, cart[i].perfume);
    forall u': UserId, p': Catalog.PerfumeId | u' != cart[i].user || p' != cart[i].perfume
      ensures Quantity(r, u', p') == Quantity(cart, u', p')
    {
      var f := Find(cart, u', p');
      if f.Some? {
        var k := f.value;
        assert k != i;
        var k' := if k < i then k else k - 1;
        assert r[k'] == cart[k];
        QuantityAt(cart, k);
        QuantityAt(r, k');
      } else {
        forall j | 0 <= j < |r|
          ensures !Matches(r[j], u', p')
        {
          if j >= i {
            assert r[j] == cart[j + 1];
          }
        }
        QuantityAbsent(r, u', p');
      }
    }
    r
  }

  /** `Cart.addItem(userId, perfumeId, quantity)`: merges into the existing
      row by adding, or creates a row; the `min: 1` validator rejects a
      resulting quantity below 1, and a new row for a perfume that is not
      stored fails the `perfumeId` foreign key at insertion.  No stock
      check happens at this level. */
  function AddItem(perfumes: map<Catalog.PerfumeId, Catalog.Perfume>, cart: Cart, u: UserId,
                   p: Catalog.PerfumeId, quantity: int): (r: Result<Cart>)
    requires Valid(cart)
    ensures r.Ok? <==> Quantity(cart, u, p) + quantity >= 1 && (Quantity(cart, u, p) > 0 || p in perfumes)
    ensures (r.Err? && r.error == ValidationFailed) <==> Quantity(cart, u, p) + quantity < 1
    ensures (r.Err? && r.error == ServerError) <==>
              Quantity(cart, u, p) == 0 && quantity >= 1 && p !in perfumes
    ensures r.Err? ==> r.error == ValidationFailed || r.error == ServerError
    ensures r.Ok? ==> Valid(r.value)
    ensures r.Ok? ==> Quantity(r.value, u, p) == Quantity(cart, u, p) + quantity
    ensures r.Ok? ==> SameElsewhere(cart, r.value, u, p)
  {
    match Find(cart, u, p)
    case Some(i) =>
      var merged := cart[i].quantity + quantity;
      if merged < 1 then Err(ValidationFailed) else Ok(SetAt(cart, i, merged))
    case None =>
      if quantity < 1 then Err(ValidationFailed)
      else if p !in perfumes then Err(ServerError)
      else Ok(Append(cart, CartLine(u, p, quantity)))
  }

  /** `Cart.updateQuantity(userId, perfumeId, quantity)`: throws for a
      missing row; a quantity of 0 or less destroys the row, any other
      quantity replaces the old one. */
  function UpdateQuantity(cart: Cart, u: UserId, p: Catalog.PerfumeId, quantity: int): (r: Result<Cart>)
    requires Valid(cart)
    ensures r.Err? <==> Quantity(cart, u, p) == 0
    ensures r.Err? ==> r.error == CartItemNotFound
    ensures r.Ok? ==> Valid(r.value)
    ensures r.Ok? ==> Quantity(r.value, u, p) == (if quantity <= 0 then 0 else quantity)
    ensures r.Ok? ==> SameElsewhere(cart, r.value, u, p)
  {
    match Find(cart, u, p)
    case None => Err(CartItemNotFound)
    case Some(i) =>
      if quantity <= 0 then Ok(RemoveAt(cart, i)) else Ok(SetAt(cart, i, quantity))
  }

  /** `Cart.removeItem(userId, perfumeId)`: `None` models the `null` the
      source returns when there is no row, in which case nothing changes. */
  function RemoveItem(cart: Cart, u: UserId, p: Catalog.PerfumeId): (r: Option<Cart>)
    requires Valid(cart)
    ensures r.None? <==> Quantity(cart, u, p) == 0
    ensures r.Some? ==> Valid(r.value)
    ensures r.Some? ==> Quantity(r.value, u, p) == 0
    ensures r.Some? ==> SameElsewhere(cart, r.value, u, p)
  {
    match Find(cart, u, p)
    case None => None
    case Some(i) => Some(RemoveAt(cart, i))
  }

  /** `Cart.clearCart(userId)`: destroys every row of `u`, keeping the other
      rows in order. */
  function ClearCart(cart: Cart, u: UserId): (r: Cart)
    ensures forall i :: 0 <= i < |r| ==> r[i].user != u
    ensures forall l :: l in r <==> l in cart && l.user != u
    ensures Valid(cart) ==> Valid(r)
    decreases |cart|
  {
    if |cart| == 0 then []
    else
      var rest := ClearCart(cart[1..], u);
      assert forall l :: l in cart <==> l == cart[0] || l in cart[1..];
      if cart[0].user == u then rest
      else
        assert Valid(cart) ==> forall j :: 0 <= j < |cart[1..]| ==> !Matches(cart[1..][j], cart[0].user, cart[0].perfume);
        [cart[0]] + rest
  }

  /** Clearing empties exactly `u`'s part of the cart: every pair of `u`
      holds nothing afterwards and every other user's pairs are untouched. */
  lemma ClearCartQuantities(cart: Cart, u: UserId, u': UserId, p: Catalog.PerfumeId)
    requires Valid(cart)
    ensures Quantity(ClearCart(cart, u), u', p) == if u' == u then 0 else Quantity(cart, u', p)
  {
    var r := ClearCart(cart, u);
    if u' == u {
      QuantityAbsent(r, u', p);
    } else {
      var f := Find(cart, u', p);
      if f.Some? {
        assert cart[f.value] in r;
        var k :| 0 <= k < |r| && r[k] == cart[f.value];
        QuantityAt(cart, f.value);
        QuantityAt(r, k);
      } else {
        forall j | 0 <= j < |r|
          ensures !Matches(r[j], u', p)
        {
          assert r[j] in cart;
        }
        QuantityAbsent(r, u', p);
      }
    }
  }

  /** The sum of `f` over the rows of a table. */
  function RealSum(cart: Cart, f: CartLine -> real): real
    decreases |cart|
  {
    if |cart| == 0 then 0.0 else RealSum(cart[..|cart| - 1], f) + f(cart[|cart| - 1])
  }

  /** The sum of `f` over the rows of a table, for integer counts. */
  function IntSum(cart: Cart, f: CartLine -> int): int
    decreases |cart|
  {
    if |cart| == 0 then 0 else IntSum(cart[..|cart| - 1], f) + f(cart[|cart| - 1])
  }

  lemma RealSumAppend(cart: Cart, l: CartLine, f: CartLine -> real)
    ensures RealSum(cart + [l], f) == RealSum(cart, f) + f(l)
  {
    assert (cart + [l])[..|cart|] == cart;
  }

  /** Replacing one row changes the sum by the difference of the two terms. */
  lemma {:induction false} RealSumSetAt(cart: Cart, i: int, l: CartLine, f: CartLine -> real)
    requires 0 <= i < |cart|
    ensures RealSum(cart[i := l], f) == RealSum(cart, f) - f(cart[i]) + f(l)
    decreases |cart|
  {
    var n := |cart| - 1;
    if i < n {
      assert cart[i := l][..n] == cart[..n][i := l];
      RealSumSetAt(cart[..n], i, l, f);
    } else {
      assert cart[i := l][..n] == cart[..n];
    }
  }

  /** Rows on which `f` vanishes contribute nothing. */
  lemma {:induction false} RealSumZero(cart: Cart, f: CartLine -> real)
    requires forall i :: 0 <= i < |cart| ==> f(cart[i]) == 0.0
    ensures RealSum(cart, f) == 0.0
    decreases |cart|
  {
    if |cart| > 0 {
      RealSumZero(cart[..|cart| - 1], f);
    }
  }

  lemma {:induction false} IntSumZero(cart: Cart, f: CartLine -> int)
    requires forall i :: 0 <= i < |cart| ==> f(cart[i]) == 0
    ensures IntSum(cart, f) == 0
    decreases |cart|
  {
    if |cart| > 0 {
      IntSumZero(cart[..|cart| - 1], f);
    }
  }

  /** Terms that never fall below zero give a sum that does not either. */
  lemma {:induction false} RealSumNonNegative(cart: Cart, f: CartLine -> real)
    requires forall i :: 0 <= i < |cart| ==> f(cart[i]) >= 0.0
    ensures RealSum(cart, f) >= 0.0
    decreases |cart|
  {
    if |cart| > 0 {
      RealSumNonNegative(cart[..|cart| - 1], f);
    }
  }

  /** The value of a row of `u` at the current catalog price (0 for other
      users' rows). */
  function LineValue(u: UserId, perfumes: map<Catalog.PerfumeId, Catalog.Perfume>): CartLine -> real
  {
    (l: CartLine) => if l.user == u && l.perfume in perfumes then l.quantity as real * perfumes[l.perfume].price else 0.0
  }

  /** Every row of `u` refers to a stored perfume (the foreign key on
      `perfumeId`). */
  predicate References(cart: Cart, u: UserId, perfumes: map<Catalog.PerfumeId, Catalog.Perfume>) {
    forall i :: 0 <= i < |cart| && cart[i].user == u ==> cart[i].perfume in perfumes
  }

  lemma NonNegativeProduct(a: real, b: real)
    requires a >= 0.0 && b >= 0.0
    ensures a * b >= 0.0
  {
  }

  /** `Cart.getCartTotal(userId)` as written.  The perfume is associated
      under the alias `perfume`, but the sum reads `item.Perfume.price`:
      `item.Perfume` is undefined, so the first row of `u`'s cart throws.
      Whether the unaliased include is itself accepted is the ORM's
      behaviour, given here as `includeAccepted`; it decides only what an
      empty cart gives. */
  function CartTotalAsWritten(cart: Cart, u: UserId, includeAccepted: bool): (r: Result<real>)
    ensures r.Ok? <==> includeAccepted && forall i :: 0 <= i < |cart| ==> cart[i].user != u
    ensures r.Ok? ==> r.value == 0.0
    ensures r.Err? ==> r.error == ServerError
  {
    if !includeAccepted || exists i :: 0 <= i < |cart| && cart[i].user == u then Err(ServerError)
    else Ok(0.0)
  }

  /** As written, after any successful `addItem` the user's total can no
      longer be computed, while the intended total has grown by exactly the
      value added. */
  lemma CartTotalAsWrittenFailsAfterAdd(cart: Cart, u: UserId, p: Catalog.PerfumeId, quantity: int,
                                        perfumes: map<Catalog.PerfumeId, Catalog.Perfume>, includeAccepted: bool)
    requires Valid(cart) && References(cart, u, perfumes) && p in perfumes
    requires AddItem(perfumes, cart, u, p, quantity).Ok?
    ensures CartTotalAsWritten(AddItem(perfumes, cart, u, p, quantity).value, u, includeAccepted) == Err(ServerError)
    ensures References(AddItem(perfumes, cart, u, p, quantity).value, u, perfumes)
    ensures CartTotal(AddItem(perfumes, cart, u, p, quantity).value, u, perfumes)
            == CartTotal(cart, u, perfumes) + quantity as real * perfumes[p].price
  {
    var r := AddItem(perfumes, cart, u, p, quantity).value;
    QuantityPositiveIffRow(r, u, p);
    var i := Find(r, u, p).value;
    assert r[i].user == u;
    AddItemTotal(cart, u, p, quantity, perfumes);
  }

  /** `Cart.getCartTotal(userId)` as intended: the live value of `u`'s
      cart, quantity times the current price summed over `u`'s rows. */
  function CartTotal(cart: Cart, u: UserId, perfumes: map<Catalog.PerfumeId, Catalog.Perfume>): (t: real)
    requires References(cart, u, perfumes)
    ensures Valid(cart) && Catalog.ValidCatalog(perfumes) ==> t >= 0.0
  {
    var f := LineValue(u, perfumes);
    assert Valid(cart) && Catalog.ValidCatalog(perfumes) ==> RealSum(cart, f) >= 0.0 by {
      if Valid(cart) && Catalog.ValidCatalog(perfumes) {
        forall i | 0 <= i < |cart|
          ensures f(cart[i]) >= 0.0
        {
          if cart[i].user == u && cart[i].perfume in perfumes {
            NonNegativeProduct(cart[i].quantity as real, perfumes[cart[i].perfume].price);
          }
        }
        RealSumNonNegative(cart, f);
      }
    }
    RealSum(cart, f)
  }

  /** A cleared cart is worth nothing. */
  lemma ClearedCartTotal(cart: Cart, u: UserId, perfumes: map<Catalog.PerfumeId, Catalog.Perfume>)
    ensures References(ClearCart(cart, u), u, perfumes)
    ensures CartTotal(ClearCart(cart, u), u, perfumes) == 0.0
  {
    RealSumZero(ClearCart(cart, u), LineValue(u, perfumes));
  }

  /** Changing the quantity of one row of `u` by `delta` changes the live
      value by `delta` times the perfume's price. */
  lemma ValueAfterSetAt(cart: Cart, i: int, delta: int, u: UserId,
                        perfumes: map<Catalog.PerfumeId, Catalog.Perfume>)
    requires 0 <= i < |cart| && cart[i].user == u && cart[i].perfume in perfumes
    ensures RealSum(cart[i := cart[i].(quantity := cart[i].quantity + delta)], LineValue(u, perfumes))
         == RealSum(cart, LineValue(u, perfumes)) + delta as real * perfumes[cart[i].perfume].price
  {
    var f := LineValue(u, perfumes);
    var l := cart[i].(quantity := cart[i].quantity + delta);
    RealSumSetAt(cart, i, l, f);
    var price := perfumes[cart[i].perfume].price;
    var before := cart[i].quantity as real;
    var old_value := before * price;
    var added := delta as real * price;
    assert f(cart[i]) == old_value;
    assert f(l) == (before + delta as real) * price;
    Distribute(before, delta as real, price);
    assert f(l) == old_value + added;
  }

  lemma Distribute(a: real, d: real, price: real)
    ensures (a + d) * price == a * price + d * price
  {
  }

  /** A successful `addItem` of `quantity` units of a stored perfume raises
      `u`'s total by `quantity` times its current price. */
  lemma AddItemTotal(cart: Cart, u: UserId, p: Catalog.PerfumeId, quantity: int,
                     perfumes: map<Catalog.PerfumeId, Catalog.Perfume>)
    requires Valid(cart) && References(cart, u, perfumes) && p in perfumes
    requires AddItem(perfumes, cart, u, p, quantity).Ok?
    ensures References(AddItem(perfumes, cart, u, p, quantity).value, u, perfumes)
    ensures CartTotal(AddItem(perfumes, cart, u, p, quantity).value, u, perfumes)
         == CartTotal(cart, u, perfumes) + quantity as real * perfumes[p].price
  {
    var r := AddItem(perfumes, cart, u, p, quantity).value;
    AddItemShape(perfumes, cart, u, p, quantity);
    match Find(cart, u, p)
    case Some(i) =>
      MergedTotal(cart, r, i, quantity, u, perfumes);
      assert cart[i].perfume == p;
    case None =>
      AppendedTotal(cart, r, CartLine(u, p, quantity), perfumes);
  }

  /** The table a successful `addItem` produces: the merged row in place,
      or the new row at the end. */
  lemma AddItemShape(perfumes: map<Catalog.PerfumeId, Catalog.Perfume>, cart: Cart, u: UserId,
                     p: Catalog.PerfumeId, quantity: int)
    requires Valid(cart) && AddItem(perfumes, cart, u, p, quantity).Ok?
    ensures Find(cart, u, p).Some? ==>
              var i := Find(cart, u, p).value;
              AddItem(perfumes, cart, u, p, quantity).value == cart[i := cart[i].(quantity := cart[i].quantity + quantity)]
    ensures Find(cart, u, p).None? ==> AddItem(perfumes, cart, u, p, quantity).value == cart + [CartLine(u, p, quantity)]
  {
  }

  /** Merging `delta` units into row `i` of `u` keeps the references and
      raises the total by `delta` times the price. */
  lemma MergedTotal(cart: Cart, r: Cart, i: int, delta: int, u: UserId, perfumes: map<Catalog.PerfumeId, Catalog.Perfume>)
    requires 0 <= i < |cart| && cart[i].user == u && References(cart, u, perfumes)
    requires r == cart[i := cart[i].(quantity := cart[i].quantity + delta)]
    ensures References(r, u, perfumes)
    ensures CartTotal(r, u, perfumes) == CartTotal(cart, u, perfumes) + delta as real * perfumes[cart[i].perfume].price
  {
    assert forall j :: 0 <= j < |r| ==> r[j].user == cart[j].user && r[j].perfume == cart[j].perfume;
    ValueAfterSetAt(cart, i, delta, u, perfumes);
  }

  /** A new row of `u` for a stored perfume keeps the references and raises
      the total by its quantity times the price. */
  lemma AppendedTotal(cart: Cart, r: Cart, l: CartLine, perfumes: map<Catalog.PerfumeId, Catalog.Perfume>)
    requires References(cart, l.user, perfumes) && l.perfume in perfumes
    requires r == cart + [l]
    ensures References(r, l.user, perfumes)
    ensures CartTotal(r, l.user, perfumes) == CartTotal(cart, l.user, perfumes) + l.quantity as real * perfumes[l.perfume].price
  {
    assert forall j :: 0 <= j < |cart| ==> r[j] == cart[j];
    RealSumAppend(cart, l, LineValue(l.user, perfumes));
  }

  /** Sums of two term functions that agree on every row are equal. */
  lemma {:induction false} RealSumCongruent(cart: Cart, f: CartLine -> real, g: CartLine -> real)
    requires forall i :: 0 <= i < |cart| ==> f(cart[i]) == g(cart[i])
    ensures RealSum(cart, f) == RealSum(cart, g)
    decreases |cart|
  {
    if |cart| > 0 {
      RealSumCongruent(cart[..|cart| - 1], f, g);
    }
  }

  /** Every row, of any user, refers to a stored perfume. */
  predicate Stocked(cart: Cart, perfumes: map<Catalog.PerfumeId, Catalog.Perfume>) {
    forall i :: 0 <= i < |cart| ==> cart[i].perfume in perfumes
  }

  /** A change confined to the pair (u, p) keeps every row referring to a
      stored perfume, provided the pair itself does when it holds anything. */
  lemma StockedAfterChange(c1: Cart, c2: Cart, u: UserId, p: Catalog.PerfumeId,
                           perfumes: map<Catalog.PerfumeId, Catalog.Perfume>)
    requires Valid(c1) && Valid(c2) && Stocked(c1, perfumes)
    requires SameElsewhere(c1, c2, u, p)
    requires Quantity(c2, u, p) > 0 ==> p in perfumes
    ensures Stocked(c2, perfumes)
  {
    forall j | 0 <= j < |c2|
      ensures c2[j].perfume in perfumes
    {
      QuantityAt(c2, j);
      if c2[j].user != u || c2[j].perfume != p {
        assert Quantity(c1, c2[j].user, c2[j].perfume) > 0;
      }
    }
  }

  /** A successful `addItem` keeps every row referring to a stored perfume:
      a merged row already did, and a new row passed the foreign key. */
  lemma AddItemKeepsStocked(perfumes: map<Catalog.PerfumeId, Catalog.Perfume>, cart: Cart, u: UserId,
                            p: Catalog.PerfumeId, quantity: int)
    requires Valid(cart) && Stocked(cart, perfumes) && AddItem(perfumes, cart, u, p, quantity).Ok?
    ensures Stocked(AddItem(perfumes, cart, u, p, quantity).value, perfumes)
  {
  }

  /** Clearing a user's rows keeps every remaining row referring to a stored
      perfume. */
  lemma StockedAfterClear(cart: Cart, u: UserId, perfumes: map<Catalog.PerfumeId, Catalog.Perfume>)
    requires Stocked(cart, perfumes)
    ensures Stocked(ClearCart(cart, u), perfumes)
  {
    var r := ClearCart(cart, u);
    forall j | 0 <= j < |r|
      ensures r[j].perfume in perfumes
    {
      assert r[j] in cart;
    }
  }
}

=== FILE: cart_controller.dfy ===
/** The cart request handlers: `getCart`, the stock-checked `addToCart`
    and `updateCartItem`, `removeFromCart`.  A handler's failure leaves the
    table as it was, so each returns the new table or the error. */
module CartController {
  import opened Results
  import Catalog
  import CartModel

  /** A cart row as a request addresses it: by its owner and perfume,
      which identify it uniquely. */
  datatype LineRef = LineRef(owner: CartModel.UserId, perfume: Catalog.PerfumeId)

  /** Whether perfume `p` exists and is active (`findOne({ where: { id,
      isActive: true } })`). */
  predicate Active(perfumes: map<Catalog.PerfumeId, Catalog.Perfume>, p: Catalog.PerfumeId) {
    p in perfumes && perfumes[p].isActive
  }

  /** `addToCart`: a missing or inactive perfume is not found; a perfume
      with no stock is refused; otherwise the quantity held after adding
      (existing plus requested, or just the requested for a new row) may
      not exceed the stock, and the row is merged or created. */
  function AddToCart(perfumes: map<Catalog.PerfumeId, Catalog.Perfume>, cart: CartModel.Cart,
                     u: CartModel.UserId, p: Catalog.PerfumeId, quantity: int): (r: Result<CartModel.Cart>)
    requires CartModel.Valid(cart)
    ensures (r.Err? && r.error == PerfumeNotFound) <==> !Active(perfumes, p)
    ensures (r.Err? && r.error == OutOfStock) <==> Active(perfumes, p) && perfumes[p].stock <= 0
    ensures (r.Err? && r.error == ExceedsStock) <==>
              Active(perfumes, p) && perfumes[p].stock > 0 && CartModel.Quantity(cart, u, p) + quantity > perfumes[p].stock
    ensures (r.Err? && r.error == ValidationFailed) <==>
              Active(perfumes, p) && perfumes[p].stock > 0 && CartModel.Quantity(cart, u, p) + quantity < 1
    ensures r.Ok? <==>
              Active(perfumes, p) && perfumes[p].stock > 0
              && 1 <= CartModel.Quantity(cart, u, p) + quantity <= perfumes[p].stock
    ensures r.Ok? ==> CartModel.Valid(r.value)
    ensures r.Ok? ==> CartModel.Quantity(r.value, u, p) == CartModel.Quantity(cart, u, p) + quantity
    ensures r.Ok? ==> CartModel.Quantity(r.value, u, p) <= perfumes[p].stock
    ensures r.Ok? ==> CartModel.SameElsewhere(cart, r.value, u, p)
  {
    if !Active(perfumes, p) then Err(PerfumeNotFound)
    else if !Catalog.IsInStock(perfumes[p]) then Err(OutOfStock)
    else if CartModel.Quantity(cart, u, p) + quantity > perfumes[p].stock then Err(ExceedsStock)
    else CartModel.AddItem(perfumes, cart, u, p, quantity)
  }

  /** `updateCartItem`: a row not owned by the caller is not found; a
      quantity of 0 or less deletes the row; a quantity above the stock is
      refused; otherwise the row's quantity becomes exactly the new one.
      The perfume is joined without the `isActive` filter; when it is
      missing the handler dereferences `null`. */
  function UpdateCartItem(perfumes: map<Catalog.PerfumeId, Catalog.Perfume>, cart: CartModel.Cart,
                          u: CartModel.UserId, line: LineRef, quantity: int): (r: Result<CartModel.Cart>)
    requires CartModel.Valid(cart)
    ensures (r.Err? && r.error == CartItemNotFound) <==> line.owner != u || CartModel.Quantity(cart, u, line.perfume) == 0
    ensures (r.Err? && r.error == ExceedsStock) <==>
              line.owner == u && CartModel.Quantity(cart, u, line.perfume) > 0 && quantity > 0
              && line.perfume in perfumes && quantity > perfumes[line.perfume].stock
    ensures (r.Err? && r.error == ServerError) <==>
              line.owner == u && CartModel.Quantity(cart, u, line.perfume) > 0 && quantity > 0
              && line.perfume !in perfumes
    ensures r.Ok? <==>
              line.owner == u && CartModel.Quantity(cart, u, line.perfume) > 0
              && (quantity <= 0 || (line.perfume in perfumes && quantity <= perfumes[line.perfume].stock))
    ensures r.Ok? ==> CartModel.Valid(r.value) && CartModel.SameElsewhere(cart, r.value, u, line.perfume)
    ensures r.Ok? && quantity <= 0 ==> CartModel.Quantity(r.value, u, line.perfume) == 0
    ensures r.Ok? && quantity > 0 ==>
              CartModel.Quantity(r.value, u, line.perfume) == quantity
              && line.perfume in perfumes && quantity <= perfumes[line.perfume].stock
  {
    CartModel.QuantityPositiveIffRow(cart, u, line.perfume);
    if line.owner != u || CartModel.Find(cart, u, line.perfume).None? then Err(CartItemNotFound)
    else if quantity <= 0 then CartModel.UpdateQuantity(cart, u, line.perfume, quantity)
    else if line.perfume !in perfumes then Err(ServerError)
    else if quantity > perfumes[line.perfume].stock then Err(ExceedsStock)
    else CartModel.UpdateQuantity(cart, u, line.perfume, quantity)
  }

  /** `removeFromCart`: a row not owned by the caller is not found;
      otherwise exactly that row goes. */
  function RemoveFromCart(cart: CartModel.Cart, u: CartModel.UserId, line: LineRef): (r: Result<CartModel.Cart>)
    requires CartModel.Valid(cart)
    ensures r.Err? <==> line.owner != u || CartModel.Quantity(cart, u, line.perfume) == 0
    ensures r.Err? ==> r.error == CartItemNotFound
    ensures r.Ok? ==> CartModel.Valid(r.value) && CartModel.Quantity(r.value, u, line.perfume) == 0
    ensures r.Ok? ==> CartModel.SameElsewhere(cart, r.value, u, line.perfume)
  {
    if line.owner != u then Err(CartItemNotFound)
    else match CartModel.RemoveItem(cart, u, line.perfume)
      case None => Err(CartItemNotFound)
      case Some(c) => Ok(c)
  }

  /** The rows `getCart` lists: the caller's rows whose perfume exists and
      is active (an inner join filtered on `isActive`). */
  predicate Listed(l: CartModel.CartLine, u: CartModel.UserId, perfumes: map<Catalog.PerfumeId, Catalog.Perfume>) {
    l.user == u && Active(perfumes, l.perfume)
  }

  function ListedQuantity(u: CartModel.UserId, perfumes: map<Catalog.PerfumeId, Catalog.Perfume>): CartModel.CartLine -> int {
    (l: CartModel.CartLine) => if Listed(l, u, perfumes) then l.quantity else 0
  }

  function ListedValue(u: CartModel.UserId, perfumes: map<Catalog.PerfumeId, Catalog.Perfume>): CartModel.CartLine -> real {
    (l: CartModel.CartLine) => if Listed(l, u, perfumes) then l.quantity as real * perfumes[l.perfume].price else 0.0
  }

  /** `getCart`: `cartCount` is the number of units and `cartTotal` their
      value at current prices, over the listed rows. */
  method GetCart(perfumes: map<Catalog.PerfumeId, Catalog.Perfume>, cart: CartModel.Cart, u: CartModel.UserId)
    returns (cartCount: int, cartTotal: real)
    ensures cartCount == CartModel.IntSum(cart, ListedQuantity(u, perfumes))
    ensures cartTotal == CartModel.RealSum(cart, ListedValue(u, perfumes))
  {
    cartCount := 0;
    cartTotal := 0.0;
    var i := 0;
    while i < |cart|
      invariant 0 <= i <= |cart|
      invariant cartCount == CartModel.IntSum(cart[..i], ListedQuantity(u, perfumes))
      invariant cartTotal == CartModel.RealSum(cart[..i], ListedValue(u, perfumes))
    {
      var l := cart[i];
      assert cart[..i + 1][..i] == cart[..i];
      if l.user == u && l.perfume in perfumes && perfumes[l.perfume].isActive {
        cartCount := cartCount + l.quantity;
        cartTotal := cartTotal + l.quantity as real * perfumes[l.perfume].price;
      }
      i := i + 1;
    }
    assert cart[..|cart|] == cart;
  }

  /** When every row of the caller refers to an active perfume, the total
      `getCart` reports is the model-level `getCartTotal`. */
  lemma ListedTotalIsCartTotal(perfumes: map<Catalog.PerfumeId, Catalog.Perfume>, cart: CartModel.Cart, u: CartModel.UserId)
    requires forall i :: 0 <= i < |cart| && cart[i].user == u ==> Active(perfumes, cart[i].perfume)
    ensures CartModel.References(cart, u, perfumes)
    ensures CartModel.RealSum(cart, ListedValue(u, perfumes)) == CartModel.CartTotal(cart, u, perfumes)
  {
    CartModel.RealSumCongruent(cart, ListedValue(u, perfumes), CartModel.LineValue(u, perfumes));
  }

  /** After `clearCart` the caller's cart counts no units and is worth
      nothing. */
  lemma ClearedCartIsEmpty(perfumes: map<Catalog.PerfumeId, Catalog.Perfume>, cart: CartModel.Cart, u: CartModel.UserId)
    ensures CartModel.IntSum(CartModel.ClearCart(cart, u), ListedQuantity(u, perfumes)) == 0
    ensures CartModel.RealSum(CartModel.ClearCart(cart, u), ListedValue(u, perfumes)) == 0.0
  {
    CartModel.IntSumZero(CartModel.ClearCart(cart, u), ListedQuantity(u, perfumes));
    CartModel.RealSumZero(CartModel.ClearCart(cart, u), ListedValue(u, perfumes));
  }

  /** A successful `addToCart` keeps every row referring to a stored
      perfume. */
  lemma AddToCartKeepsReferences(perfumes: map<Catalog.PerfumeId, Catalog.Perfume>, cart: CartModel.Cart,
                                 u: CartModel.UserId, p: Catalog.PerfumeId, quantity: int)
    requires CartModel.Valid(cart) && CartModel.Stocked(cart, perfumes)
    requires AddToCart(perfumes, cart, u, p, quantity).Ok?
    ensures CartModel.Stocked(AddToCart(perfumes, cart, u, p, quantity).value, perfumes)
  {
    CartModel.StockedAfterChange(cart, AddToCart(perfumes, cart, u, p, quantity).value, u, p, perfumes);
  }

  /** A successful `updateCartItem` keeps every row referring to a stored
      perfume. */
  lemma UpdateCartItemKeepsReferences(perfumes: map<Catalog.PerfumeId, Catalog.Perfume>, cart: CartModel.Cart,
                                      u: CartModel.UserId, line: LineRef, quantity: int)
    requires CartModel.Valid(cart) && CartModel.Stocked(cart, perfumes)
    requires UpdateCartItem(perfumes, cart, u, line, quantity).Ok?
    ensures CartModel.Stocked(UpdateCartItem(perfumes, cart, u, line, quantity).value, perfumes)
  {
    CartModel.StockedAfterChange(cart, UpdateCartItem(perfumes, cart, u, line, quantity).value, u, line.perfume, perfumes);
  }

  /** A successful `removeFromCart` keeps every row referring to a stored
      perfume. */
  lemma RemoveFromCartKeepsReferences(perfumes: map<Catalog.PerfumeId, Catalog.Perfume>, cart: CartModel.Cart,
                                      u: CartModel.UserId, line: LineRef)
    requires CartModel.Valid(cart) && CartModel.Stocked(cart, perfumes)
    requires RemoveFromCart(cart, u, line).Ok?
    ensures CartModel.Stocked(RemoveFromCart(cart, u, line).value, perfumes)
  {
    CartModel.StockedAfterChange(cart, RemoveFromCart(cart, u, line).value, u, line.perfume, perfumes);
  }
}

=== FILE: checkout.dfy ===
/** `createOrder`: the checks made before anything is written (a
    non-empty item list, then each line's perfume and stock, then the
    order row's validators), the pricing, and the writes (the order row,
    one line per item with its stock decrement, then the cart cleared).
    The order number (made from the clock and a random value, see
    `PlaceOrderNumbered`) is a parameter, and so is the key the database
    gives the new row. */
module Checkout {
  import opened Results
  import Catalog
  import CartModel
  import OrderItems
  import Inventory
  import OrderNumbers
  import Orders
  import Store

  /** One element of the request's `items`. */
  datatype LineRequest = LineRequest(perfume: Catalog.PerfumeId, quantity: int)

  /** The request body; `items` is `None` when the key is absent. */
  datatype Request = Request(
    items: Option<seq<LineRequest>>,
    shippingAddress: Orders.Address,
    billingAddress: Option<Orders.Address>,
    paymentMethod: string,
    notes: Option<string>)

  /** The database after the request, and its outcome: the new order's key
      or the error the client receives. */
  datatype Reply = Reply(db: Store.Db, result: Result<Orders.OrderId>)

  /** The request's lines, none when `items` is absent. */
  function Lines(req: Request): seq<LineRequest> {
    req.items.GetOr([])
  }

  function SnapshotOf(p: Catalog.Perfume): OrderItems.Snapshot {
    OrderItems.Snapshot(p.name, p.brand, p.imageUrl, p.size)
  }

  /** The order line built for a request line: the perfume's current price
      as unit price, price times quantity as total, and a snapshot of its
      display data. */
  function ItemFor(id: Catalog.PerfumeId, p: Catalog.Perfume, quantity: int): (item: OrderItems.OrderItem)
    ensures item.perfume == id && item.quantity == quantity && item.snapshot == SnapshotOf(p)
    ensures item.totalPrice == OrderItems.CalculateTotal(item)
  {
    OrderItems.OrderItem(id, quantity, p.price, p.price * quantity as real, SnapshotOf(p))
  }

  /** A request line passes the stock check: its perfume exists, is in
      stock, and holds at least the quantity asked for.  Each line is
      compared with the stock on its own. */
  predicate Available(perfumes: map<Catalog.PerfumeId, Catalog.Perfume>, l: LineRequest) {
    l.perfume in perfumes && Catalog.IsInStock(perfumes[l.perfume]) && perfumes[l.perfume].stock >= l.quantity
  }

  /** Why a line that is not available is refused: 404 for a missing
      perfume, 400 for short stock. */
  function Refusal(perfumes: map<Catalog.PerfumeId, Catalog.Perfume>, l: LineRequest): Error {
    if l.perfume in perfumes then InsufficientStock else PerfumeNotFound
  }

  /** The first loop of `createOrder`: every line must be available, and
      the first one that is not decides the error; otherwise one order line
      per request line. */
  function CheckLines(perfumes: map<Catalog.PerfumeId, Catalog.Perfume>, lines: seq<LineRequest>)
    : (r: Result<seq<OrderItems.OrderItem>>)
    ensures r.Ok? <==> forall i :: 0 <= i < |lines| ==> Available(perfumes, lines[i])
    ensures r.Ok? ==> |r.value| == |lines|
    ensures r.Ok? ==> forall i :: 0 <= i < |lines| ==>
              r.value[i] == ItemFor(lines[i].perfume, perfumes[lines[i].perfume], lines[i].quantity)
    ensures r.Err? ==> (exists k :: 0 <= k < |lines| && !Available(perfumes, lines[k])
                          && r.error == Refusal(perfumes, lines[k])
                          && forall i :: 0 <= i < k ==> Available(perfumes, lines[i]))
    decreases |lines|
  {
    if |lines| == 0 then Ok([])
    else
      var l := lines[0];
      if l.perfume !in perfumes then Err(PerfumeNotFound)
      else if !Catalog.IsInStock(perfumes[l.perfume]) || perfumes[l.perfume].stock < l.quantity then Err(InsufficientStock)
      else match CheckLines(perfumes, lines[1..])
        case Err(e) =>
          assert forall k :: 0 <= k < |lines| - 1 ==> lines[1..][k] == lines[k + 1];
          Err(e)
        case Ok(rest) => Ok([ItemFor(l.perfume, perfumes[l.perfume], l.quantity)] + rest)
  }

  datatype Pricing = Pricing(subtotal: real, tax: real, shipping: real, total: real)

  /** The tax rate, and the flat shipping fee charged up to and including a
      subtotal of 100. */
  const TaxRate: real := 0.1
  const FreeShippingAbove: real := 100.0
  const ShippingFee: real := 10.0

  /** Tax, shipping and total for a subtotal. */
  function Price(subtotal: real): (r: Pricing)
    ensures r.subtotal == subtotal
    ensures r.tax * 10.0 == subtotal
    ensures r.shipping == 0.0 <==> subtotal > 100.0
    ensures r.shipping == 0.0 || r.shipping == 10.0
    ensures r.total - r.tax - r.shipping == subtotal
    ensures subtotal >= 0.0 ==> r.tax >= 0.0 && r.total >= subtotal
  {
    var tax := subtotal * TaxRate;
    var shipping := if subtotal > FreeShippingAbove then 0.0 else ShippingFee;
    Pricing(subtotal, tax, shipping, subtotal + tax + shipping)
  }

  /** The amounts of an order row agree with the pricing of its lines. */
  predicate Priced(o: Orders.Order, items: seq<OrderItems.OrderItem>) {
    && o.subtotal == OrderItems.SumTotals(items)
    && o.taxAmount * 10.0 == o.subtotal
    && (o.shippingAmount == 0.0 <==> o.subtotal > 100.0)
    && (o.shippingAmount == 0.0 || o.shippingAmount == 10.0)
    && o.totalAmount == o.subtotal + o.taxAmount + o.shippingAmount
    && o.discountAmount == 0.0
  }

  /** The order row keeps what the customer sent: the shipping address,
      the payment method it names, the notes, and the billing address,
      which defaults to the shipping address.  Nothing has been delivered,
      cancelled or discounted yet. */
  predicate AsRequested(o: Orders.Order, req: Request) {
    && o.shippingAddress == req.shippingAddress
    && Orders.PaymentMethodName(o.paymentMethod) == req.paymentMethod
    && o.notes == req.notes
    && o.billingAddress == Some(req.billingAddress.GetOr(req.shippingAddress))
    && o.discountAmount == 0.0
    && o.deliveredAt.None? && o.cancelledAt.None? && o.cancellationReason.None?
  }

  /** The row and lines `createOrder` is about to write. */
  datatype Plan = Plan(row: Orders.Order, items: seq<OrderItems.OrderItem>)

  /** What `Order.create` makes of the request for these lines: the row
      priced from the lines' totals, with the request's addresses, payment
      method and notes, or the validation error. */
  function RowFor(user: CartModel.UserId, req: Request, items: seq<OrderItems.OrderItem>, number: string)
    : Result<Orders.Order>
  {
    var pricing := Price(OrderItems.SumTotals(items));
    Orders.CreateRow(number, user, pricing.subtotal, pricing.tax, pricing.shipping, pricing.total,
                     req.paymentMethod, req.shippingAddress, req.billingAddress, req.notes)
  }

  /** Everything `createOrder` does before its first write: the empty-list
      check, the line checks, the pricing, the order number, and the order
      row's validators and unique number. */
  function Prepare(db: Store.Db, user: CartModel.UserId, req: Request, number: string): (r: Result<Plan>)
    ensures (r.Err? && r.error == EmptyOrder) <==> Lines(req) == []
    ensures r.Ok? <==>
              && Lines(req) != []
              && CheckLines(db.perfumes, Lines(req)).Ok?
              && RowFor(user, req, CheckLines(db.perfumes, Lines(req)).value, number).Ok?
              && !Store.NumberTaken(db.orders, number)
    ensures Lines(req) != [] && CheckLines(db.perfumes, Lines(req)).Err? ==>
              r == Err(CheckLines(db.perfumes, Lines(req)).error)
    ensures r.Ok? ==> Lines(req) != [] && CheckLines(db.perfumes, Lines(req)) == Ok(r.value.items)
    ensures r.Ok? ==> Priced(r.value.row, r.value.items)
    ensures r.Ok? ==> Orders.ValidOrder(r.value.row) && r.value.row.items == [] && r.value.row.user == user
    ensures r.Ok? ==> r.value.row.status == Orders.Pending && r.value.row.paymentStatus == Orders.PaymentPending
    ensures r.Ok? ==> AsRequested(r.value.row, req)
    ensures r.Ok? ==> r.value.row.orderNumber == number
    ensures r.Ok? ==> !Store.NumberTaken(db.orders, r.value.row.orderNumber)
  {
    if Lines(req) == [] then Err(EmptyOrder)
    else match CheckLines(db.perfumes, Lines(req))
      case Err(e) => Err(e)
      case Ok(items) =>
        match RowFor(user, req, items, number)
        case Err(e) => Err(e)
        case Ok(row) =>
          if Store.NumberTaken(db.orders, number) then Err(ServerError)
          else Ok(Plan(row, items))
  }

  /** On a valid catalog, with every line asking for at least one unit,
      the checks before the first write pass exactly when there are lines,
      each is available, the shipping address is complete, the payment
      method is one of the four, and no stored order has the number. */
  lemma PrepareSucceeds(db: Store.Db, user: CartModel.UserId, req: Request, number: string)
    requires Catalog.ValidCatalog(db.perfumes) && QuantitiesPositive(Lines(req))
    ensures Prepare(db, user, req, number).Ok? <==>
              && Lines(req) != []
              && (forall i :: 0 <= i < |Lines(req)| ==> Available(db.perfumes, Lines(req)[i]))
              && Orders.IsValidAddress(req.shippingAddress)
              && Orders.ParsePaymentMethod(req.paymentMethod).Some?
              && !Store.NumberTaken(db.orders, number)
  {
    if Lines(req) != [] && CheckLines(db.perfumes, Lines(req)).Ok? {
      var items := CheckLines(db.perfumes, Lines(req)).value;
      CheckedItemsValid(db.perfumes, Lines(req));
      assert forall i :: 0 <= i < |items| ==> OrderItems.Valid(items[i]);
      OrderItems.SumTotalsNonNegative(items);
    }
  }

  /** The line checks look only at whether the perfume exists and its
      stock: unlike `addToCart`, the checkout takes orders for a perfume
      that has been deactivated. */
  lemma CheckLinesIgnoresActive(perfumes: map<Catalog.PerfumeId, Catalog.Perfume>, lines: seq<LineRequest>,
                                p: Catalog.PerfumeId, active: bool)
    requires p in perfumes
    ensures CheckLines(perfumes[p := perfumes[p].(isActive := active)], lines).Ok?
            <==> CheckLines(perfumes, lines).Ok?
  {
  }

  /** How far the second loop got: the stocks after the decrements made so
      far, the lines saved so far, and the error that stopped it. */
  datatype Progress = Progress(perfumes: Inventory.Products, saved: seq<OrderItems.OrderItem>, failure: Option<Error>)

  /** The second loop of `createOrder`: each line is saved (its validators
      can reject it) and then its perfume's stock is decremented; the first
      rejected line stops the loop with the earlier writes in place.  The
      lines saved are a prefix of the items, and the stocks are those after
      withdrawing exactly that prefix. */
  function WriteItems(perfumes: Inventory.Products, items: seq<OrderItems.OrderItem>): (r: Progress)
    ensures r.failure.None? <==> forall i :: 0 <= i < |items| ==> OrderItems.Save(items[i]).Ok?
    ensures r.failure.Some? ==> r.failure.value == ValidationFailed
    ensures |r.saved| <= |items|
    ensures forall i :: 0 <= i < |r.saved| ==> OrderItems.Save(items[i]) == Ok(r.saved[i])
    ensures r.failure.None? ==> |r.saved| == |items|
    ensures r.failure.Some? ==> |r.saved| < |items| && OrderItems.Save(items[|r.saved|]).Err?
    ensures r.perfumes == Inventory.Withdraw(perfumes, items[..|r.saved|])
    ensures r.perfumes.Keys == perfumes.Keys
    decreases |items|
  {
    if |items| == 0 then Progress(perfumes, [], None)
    else match OrderItems.Save(items[0])
      case Err(e) =>
        assert items[..0] == [];
        Progress(perfumes, [], Some(e))
      case Ok(saved) =>
        var next := Inventory.Adjust(perfumes, items[0].perfume, -items[0].quantity);
        var rest := WriteItems(next, items[1..]);
        assert forall i :: 0 <= i < |items| - 1 ==> items[1..][i] == items[i + 1];
        WithdrawPrefixStep(perfumes, items, |rest.saved|);
        Progress(rest.perfumes, [saved] + rest.saved, rest.failure)
  }

  /** When every line already passes its validators, the write loop saves
      them all unchanged and withdraws all of them. */
  lemma WriteItemsAllValid(perfumes: Inventory.Products, items: seq<OrderItems.OrderItem>)
    requires forall i :: 0 <= i < |items| ==> OrderItems.Valid(items[i])
    ensures WriteItems(perfumes, items) == Progress(Inventory.Withdraw(perfumes, items), items, None)
  {
    var r := WriteItems(perfumes, items);
    forall i | 0 <= i < |items|
      ensures OrderItems.Save(items[i]) == Ok(items[i])
    {
      OrderItems.SaveValid(items[i]);
    }
    assert r.saved == items;
    assert items[..|items|] == items;
  }

  /** Withdrawing a non-empty prefix takes off its first line, then the
      rest of the prefix. */
  lemma WithdrawPrefixStep(perfumes: Inventory.Products, items: seq<OrderItems.OrderItem>, k: nat)
    requires k < |items|
    ensures Inventory.Withdraw(perfumes, items[..k + 1])
            == Inventory.Withdraw(Inventory.Adjust(perfumes, items[0].perfume, -items[0].quantity), items[1..][..k])
  {
    assert items[..k + 1][0] == items[0];
    assert items[..k + 1][1..] == items[1..][..k];
  }

  /** `createOrder` as written.  A failure before the order row is created
      writes nothing; a line rejected by its validators after the row is
      created leaves the row, the lines saved before it and their stock
      decrements in place, and answers with a server error. */
  function PlaceOrderAsWritten(db: Store.Db, user: CartModel.UserId, req: Request, id: Orders.OrderId,
                               number: string): (r: Reply)
    requires id !in db.orders
    ensures r.result.Ok? ==> r.result.value == id && id in r.db.orders
    ensures Prepare(db, user, req, number).Err? ==> r.db == db && r.result.Err?
    ensures r.result.Err? && r.db != db ==>
              r.result.error == ValidationFailed && id in r.db.orders && r.db.cart == db.cart
  {
    match Prepare(db, user, req, number)
    case Err(e) => Reply(db, Err(e))
    case Ok(plan) =>
      var w := WriteItems(db.perfumes, plan.items);
      var orders := db.orders[id := plan.row.(items := w.saved)];
      if w.failure.Some? then Reply(Store.Db(w.perfumes, db.cart, orders), Err(w.failure.value))
      else Reply(Store.Db(w.perfumes, CartModel.ClearCart(db.cart, user), orders), Ok(id))
  }

  /** As written, once the checks pass the order row is stored with the
      lines saved before the first rejected one, exactly those lines' stock
      is withdrawn, and the request fails exactly when some line was
      rejected; only a complete write clears the cart. */
  lemma PlaceOrderAsWrittenPartialWrites(db: Store.Db, user: CartModel.UserId, req: Request, id: Orders.OrderId,
                                         number: string)
    requires id !in db.orders && Prepare(db, user, req, number).Ok?
    ensures var r := PlaceOrderAsWritten(db, user, req, id, number);
            var plan := Prepare(db, user, req, number).value;
            && id in r.db.orders
            && r.db.orders == db.orders[id := plan.row.(items := r.db.orders[id].items)]
            && |r.db.orders[id].items| <= |plan.items|
            && (forall i :: 0 <= i < |r.db.orders[id].items| ==>
                  OrderItems.Save(plan.items[i]) == Ok(r.db.orders[id].items[i]))
            && r.db.perfumes == Inventory.Withdraw(db.perfumes, plan.items[..|r.db.orders[id].items|])
            && (r.result.Err? <==> |r.db.orders[id].items| < |plan.items|)
            && (r.result.Err? ==> OrderItems.Save(plan.items[|r.db.orders[id].items|]).Err? && r.db.cart == db.cart)
            && (r.result.Ok? ==> r.db.cart == CartModel.ClearCart(db.cart, user))
  {
    var plan := Prepare(db, user, req, number).value;
    var w := WriteItems(db.perfumes, plan.items);
    var r := PlaceOrderAsWritten(db, user, req, id, number);
    assert r.db.orders[id].items == w.saved && r.db.perfumes == w.perfumes;
  }

  /** Storing a new valid order under a fresh key and number, withdrawing
      the stock of lines that ask for no negative quantity, and leaving a
      valid cart that refers to stored perfumes keeps every constraint. */
  lemma CommitKeepsValid(db: Store.Db, after: Store.Db, id: Orders.OrderId, o: Orders.Order,
                         done: seq<OrderItems.OrderItem>)
    requires Store.Valid(db) && id !in db.orders && !Store.NumberTaken(db.orders, o.orderNumber)
    requires Orders.ValidOrder(o) && Inventory.NonNegativeQuantities(done)
    requires after.perfumes == Inventory.Withdraw(db.perfumes, done) && after.orders == db.orders[id := o]
    requires CartModel.Valid(after.cart) && CartModel.Stocked(after.cart, db.perfumes)
    ensures Store.Valid(after)
  {
    Inventory.WithdrawKeepsCatalogValid(db.perfumes, done);
    Store.InsertKeepsNumbersUnique(db.orders, id, o);
    forall i | 0 <= i < |after.cart|
      ensures after.cart[i].perfume in after.perfumes
    {
      assert after.cart[i].perfume in db.perfumes;
    }
  }

  /** As written, a checkout keeps every database constraint, even when a
      line fails half-way: the lines saved before it passed their
      validators, and their decrements keep every stock non-negative. */
  lemma PlaceOrderAsWrittenKeepsValid(db: Store.Db, user: CartModel.UserId, req: Request, id: Orders.OrderId,
                                      number: string)
    requires id !in db.orders && Store.Valid(db)
    ensures Store.Valid(PlaceOrderAsWritten(db, user, req, id, number).db)
  {
    if Prepare(db, user, req, number).Ok? {
      var r := PlaceOrderAsWritten(db, user, req, id, number);
      var plan := Prepare(db, user, req, number).value;
      PlaceOrderAsWrittenPartialWrites(db, user, req, id, number);
      var written := r.db.orders[id].items;
      var done := plan.items[..|written|];
      forall i | 0 <= i < |written|
        ensures OrderItems.Valid(written[i]) && done[i].quantity >= 0
      {
        assert OrderItems.Save(plan.items[i]) == Ok(written[i]);
      }
      if r.result.Ok? {
        CartModel.StockedAfterClear(db.cart, user, db.perfumes);
      }
      CommitKeepsValid(db, r.db, id, plan.row.(items := written), done);
    }
  }

  /** Every request line asks for at least one unit. */
  predicate QuantitiesPositive(lines: seq<LineRequest>) {
    forall i :: 0 <= i < |lines| ==> lines[i].quantity >= 1
  }

  /** `createOrder` with the line quantities validated with the rest of the
      request, before any write: a line asking for fewer than one unit is
      refused as a bad request, and the order line's own `min: 1` can no
      longer fail half-way through. */
  function PlaceOrder(db: Store.Db, user: CartModel.UserId, req: Request, id: Orders.OrderId,
                      number: string): (r: Reply)
    requires id !in db.orders
    ensures r.result.Ok? ==> r.result.value == id && id in r.db.orders
    ensures (r.result.Err? && r.result.error == EmptyOrder) <==> Lines(req) == []
    ensures !QuantitiesPositive(Lines(req)) ==> r == Reply(db, Err(InvalidQuantity))
    ensures r.result.Ok? ==> QuantitiesPositive(Lines(req)) && Prepare(db, user, req, number).Ok?
  {
    if !QuantitiesPositive(Lines(req)) then Reply(db, Err(InvalidQuantity))
    else PlaceOrderAsWritten(db, user, req, id, number)
  }

  /** With positive quantities and non-negative prices every line the
      checks build passes its validators. */
  lemma CheckedItemsValid(perfumes: map<Catalog.PerfumeId, Catalog.Perfume>, lines: seq<LineRequest>)
    requires Catalog.ValidCatalog(perfumes) && QuantitiesPositive(lines)
    requires CheckLines(perfumes, lines).Ok?
    ensures forall i :: 0 <= i < |CheckLines(perfumes, lines).value| ==> OrderItems.Valid(CheckLines(perfumes, lines).value[i])
    ensures Inventory.NonNegativeQuantities(CheckLines(perfumes, lines).value)
  {
    var items := CheckLines(perfumes, lines).value;
    forall i | 0 <= i < |items|
      ensures OrderItems.Valid(items[i])
    {
      assert items[i].unitPrice == perfumes[lines[i].perfume].price;
    }
  }

  /** On a valid database, what a successful `createOrder` writes: the new
      order row with its lines, every ordered perfume's stock decremented,
      and the caller's cart cleared. */
  lemma PlaceOrderWrites(db: Store.Db, user: CartModel.UserId, req: Request, id: Orders.OrderId,
                         number: string)
    requires id !in db.orders && Catalog.ValidCatalog(db.perfumes)
    requires Prepare(db, user, req, number).Ok? && QuantitiesPositive(Lines(req))
    ensures var plan := Prepare(db, user, req, number).value;
            && Inventory.NonNegativeQuantities(plan.items)
            && (forall i :: 0 <= i < |plan.items| ==> OrderItems.Valid(plan.items[i]))
            && PlaceOrder(db, user, req, id, number)
               == Reply(Store.Db(Inventory.Withdraw(db.perfumes, plan.items),
                                 CartModel.ClearCart(db.cart, user),
                                 db.orders[id := plan.row.(items := plan.items)]),
                        Ok(id))
  {
    CheckedItemsValid(db.perfumes, Lines(req));
    WriteItemsAllValid(db.perfumes, Prepare(db, user, req, number).value.items);
  }

  /** On a valid database a failed `createOrder` changes nothing. */
  lemma PlaceOrderFailureWritesNothing(db: Store.Db, user: CartModel.UserId, req: Request, id: Orders.OrderId,
                                       number: string)
    requires id !in db.orders && Catalog.ValidCatalog(db.perfumes)
    ensures PlaceOrder(db, user, req, id, number).result.Err? ==>
              PlaceOrder(db, user, req, id, number).db == db
  {
    if QuantitiesPositive(Lines(req)) && Prepare(db, user, req, number).Ok? {
      PlaceOrderWrites(db, user, req, id, number);
    }
  }

  /** When the checks before the first write pass, `createOrder` succeeds:
      every line was available, and it stored a pending order, unpaid,
      priced from the lines, keeping the customer's addresses, payment
      method and notes, and carrying the number it was given.  No other order
      changes. */
  lemma PlaceOrderRecordsOrder(db: Store.Db, user: CartModel.UserId, req: Request, id: Orders.OrderId,
                               number: string)
    requires id !in db.orders && Catalog.ValidCatalog(db.perfumes)
    requires Prepare(db, user, req, number).Ok? && QuantitiesPositive(Lines(req))
    ensures var r := PlaceOrder(db, user, req, id, number);
            var o := r.db.orders[id];
            && r.result == Ok(id) && Lines(req) != []
            && (forall i :: 0 <= i < |Lines(req)| ==> Available(db.perfumes, Lines(req)[i]))
            && r.db.orders == db.orders[id := o]
            && CheckLines(db.perfumes, Lines(req)) == Ok(o.items)
            && o.user == user
            && o.status == Orders.Pending && o.paymentStatus == Orders.PaymentPending
            && AsRequested(o, req)
            && Priced(o, o.items)
            && o.orderNumber == number
  {
    PlaceOrderWrites(db, user, req, id, number);
  }

  /** When the checks before the first write pass, `createOrder` succeeds
      and leaves each perfume with its stock less the units ordered of it,
      clamped at zero; nothing else about the catalog changes. */
  lemma PlaceOrderWithdrawsStock(db: Store.Db, user: CartModel.UserId, req: Request, id: Orders.OrderId,
                                 number: string)
    requires id !in db.orders && Catalog.ValidCatalog(db.perfumes)
    requires Prepare(db, user, req, number).Ok? && QuantitiesPositive(Lines(req))
    ensures var r := PlaceOrder(db, user, req, id, number);
            var items := r.db.orders[id].items;
            && r.result == Ok(id)
            && r.db.perfumes.Keys == db.perfumes.Keys
            && forall p :: p in db.perfumes ==>
                 r.db.perfumes[p] == db.perfumes[p].(stock := Inventory.Max0(db.perfumes[p].stock - OrderItems.Ordered(items, p)))
  {
    var plan := Prepare(db, user, req, number).value;
    PlaceOrderWrites(db, user, req, id, number);
    CommittedStock(db, PlaceOrder(db, user, req, id, number), id, plan.items);
  }

  /** The stock part of a committed order, stated of any reply whose
      catalog is the withdrawal of the stored order's lines. */
  lemma CommittedStock(db: Store.Db, r: Reply, id: Orders.OrderId, items: seq<OrderItems.OrderItem>)
    requires Inventory.StocksNonNegative(db.perfumes) && Inventory.NonNegativeQuantities(items)
    requires r.db.perfumes == Inventory.Withdraw(db.perfumes, items)
    requires id in r.db.orders && r.db.orders[id].items == items
    ensures r.db.perfumes.Keys == db.perfumes.Keys
    ensures forall p :: p in db.perfumes ==>
              r.db.perfumes[p] == db.perfumes[p].(stock := Inventory.Max0(db.perfumes[p].stock - OrderItems.Ordered(r.db.orders[id].items, p)))
  {
    Inventory.WithdrawClamps(db.perfumes, items);
  }

  /** A successful `createOrder` empties the caller's cart and leaves every
      other user's cart as it was. */
  lemma PlaceOrderClearsCart(db: Store.Db, user: CartModel.UserId, req: Request, id: Orders.OrderId,
                             number: string, u: CartModel.UserId, p: Catalog.PerfumeId)
    requires id !in db.orders && Catalog.ValidCatalog(db.perfumes) && CartModel.Valid(db.cart)
    requires PlaceOrder(db, user, req, id, number).result.Ok?
    ensures var c := PlaceOrder(db, user, req, id, number).db.cart;
            CartModel.Quantity(c, u, p) == if u == user then 0 else CartModel.Quantity(db.cart, u, p)
  {
    PlaceOrderWrites(db, user, req, id, number);
    CartModel.ClearCartQuantities(db.cart, user, u, p);
  }

  /** A successful `createOrder` keeps every constraint of the database. */
  lemma PlaceOrderKeepsValid(db: Store.Db, user: CartModel.UserId, req: Request, id: Orders.OrderId,
                             number: string)
    requires id !in db.orders && Store.Valid(db)
    ensures Store.Valid(PlaceOrder(db, user, req, id, number).db)
  {
    if QuantitiesPositive(Lines(req)) {
      PlaceOrderAsWrittenKeepsValid(db, user, req, id, number);
    }
  }

  /** With positive quantities, a line that is not available fails the
      request with the first such line's error, and nothing is written. */
  lemma PlaceOrderRefusesUnavailable(db: Store.Db, user: CartModel.UserId, req: Request, id: Orders.OrderId,
                                     number: string, j: int)
    requires id !in db.orders
    requires QuantitiesPositive(Lines(req)) && 0 <= j < |Lines(req)| && !Available(db.perfumes, Lines(req)[j])
    ensures var r := PlaceOrder(db, user, req, id, number);
            && r.db == db
            && exists k :: 0 <= k <= j && !Available(db.perfumes, Lines(req)[k])
                 && r.result == Err(Refusal(db.perfumes, Lines(req)[k]))
                 && forall i :: 0 <= i < k ==> Available(db.perfumes, Lines(req)[i])
  {
  }

  // Worked examples.

  const RoseOud := Catalog.Perfume("Rose Oud", "Maison", 30.0, None, 50, None, 5, true)
  const WhiteMusk := Catalog.Perfume("White Musk", "Maison", 15.0, Some(20.0), 100, None, 4, true)

  function Home(): Orders.Address {
    Orders.Address(Some("1 Main Street"), Some("Springfield"), Some("12345"), Some("US"))
  }

  /** Two of a 30.00 perfume and one of a 15.00 perfume: subtotal 75, tax
      7.5, shipping 10, total 92.5. */
  lemma PricingExample()
    ensures var lines := [LineRequest(1, 2), LineRequest(2, 1)];
            var r := CheckLines(map[1 := RoseOud, 2 := WhiteMusk], lines);
            && r.Ok?
            && OrderItems.SumTotals(r.value) == 75.0
            && Price(OrderItems.SumTotals(r.value)) == Pricing(75.0, 7.5, 10.0, 92.5)
  {
    var perfumes := map[1 := RoseOud, 2 := WhiteMusk];
    var lines := [LineRequest(1, 2), LineRequest(2, 1)];
    var items := CheckLines(perfumes, lines).value;
    assert items[..1][..0] == [];
    assert items == [ItemFor(1, RoseOud, 2), ItemFor(2, WhiteMusk, 1)];
    assert OrderItems.SumTotals(items[..1]) == 60.0;
  }

  /** Shipping is charged at a subtotal of exactly 100 and free just above. */
  lemma ShippingBoundary()
    ensures Price(100.0).shipping == 10.0
    ensures Price(100.01).shipping == 0.0
  {
  }

  /** `createOrder` numbers the order from `Date.now()` and a random value
      below 1000: the stored number reads back as exactly those two. */
  lemma PlaceOrderNumbered(db: Store.Db, user: CartModel.UserId, req: Request, id: Orders.OrderId,
                           timestamp: nat, random: nat)
    requires random < 1000 && id !in db.orders
    ensures var r := PlaceOrder(db, user, req, id, OrderNumbers.Format(timestamp, random));
            r.result.Ok? ==>
              OrderNumbers.Parse(r.db.orders[id].orderNumber) == Some(OrderNumbers.Parts(timestamp, random))
  {
    OrderNumbers.ParseFormat(timestamp, random);
  }

  /** Each line is compared with the stock on its own, so two lines of 3
      against a stock of 5 both pass, and the clamped decrements leave the
      stock at 0 although 6 units were ordered. */
  lemma DuplicateLinesOversell()
    ensures var perfumes := map[1 := RoseOud];
            var r := CheckLines(perfumes, [LineRequest(1, 3), LineRequest(1, 3)]);
            && r.Ok?
            && OrderItems.Ordered(r.value, 1) == 6
            && Inventory.Withdraw(perfumes, r.value)[1].stock == 0
  {
    var perfumes := map[1 := RoseOud];
    var items := CheckLines(perfumes, [LineRequest(1, 3), LineRequest(1, 3)]).value;
    assert items == [ItemFor(1, RoseOud, 3), ItemFor(1, RoseOud, 3)];
    assert items[1..] == [ItemFor(1, RoseOud, 3)];
    assert items[1..][1..] == [];
    assert OrderItems.Ordered(items[1..], 1) == 3;
    Inventory.WithdrawClamps(perfumes, items);
  }

  function ExampleDb(): Store.Db {
    Store.Db(map[1 := RoseOud], [], map[])
  }

  /** A request for zero units passes every check made before the order row
      is written. */
  function ZeroQuantityRequest(): Request {
    Request(Some([LineRequest(1, 0)]), Home(), None, "credit_card", None)
  }

  /** As written, when the first line asks for 0 units and the checks
      before the first write pass, the order row is created and only then
      does the line's `min: 1` validator fail: the request answers with an
      error while an order with no lines stays in the database. */
  lemma ZeroQuantityLeavesOrphanOrder(db: Store.Db, user: CartModel.UserId, req: Request, id: Orders.OrderId,
                                      number: string)
    requires id !in db.orders
    requires Prepare(db, user, req, number).Ok? && Lines(req)[0].quantity == 0
    ensures var r := PlaceOrderAsWritten(db, user, req, id, number);
            && r.result == Err(ValidationFailed)
            && id in r.db.orders && r.db.orders[id].items == [] && r.db.orders[id].user == user
            && r.db != db
  {
    var plan := Prepare(db, user, req, number).value;
    assert OrderItems.Save(plan.items[0]).Err?;
  }

  /** A concrete instance, at any clock reading: one perfume in stock and
      a request for 0 units of it. */
  lemma ZeroQuantityExample(number: string)
    ensures var r := PlaceOrderAsWritten(ExampleDb(), 7, ZeroQuantityRequest(), 1, number);
            && r.result == Err(ValidationFailed)
            && 1 in r.db.orders && r.db.orders[1].items == [] && r.db != ExampleDb()
  {
    ZeroQuantityPrepared(number);
    ZeroQuantityLeavesOrphanOrder(ExampleDb(), 7, ZeroQuantityRequest(), 1, number);
  }

  lemma HomeIsValid()
    ensures Orders.IsValidAddress(Home())
  {
    assert Orders.TrimStart("1 Main Street") == "1 Main Street";
    assert Orders.TrimStart("Springfield") == "Springfield";
    assert Orders.TrimStart("12345") == "12345";
    assert Orders.TrimStart("US") == "US";
  }

  /** The zero-unit request passes every check made before the first
      write. */
  lemma ZeroQuantityPrepared(number: string)
    ensures var plan := Prepare(ExampleDb(), 7, ZeroQuantityRequest(), number);
            plan.Ok? && plan.value.items == [ItemFor(1, RoseOud, 0)] && plan.value.row.user == 7
  {
    HomeIsValid();
    var db := ExampleDb();
    var req := ZeroQuantityRequest();
    var items := CheckLines(db.perfumes, Lines(req)).value;
    assert items == [ItemFor(1, RoseOud, 0)];
    assert OrderItems.SumTotals(items) == 0.0 by {
      assert items[..0] == [];
    }
    assert Price(0.0) == Pricing(0.0, 0.0, 10.0, 10.0);
    assert Orders.CreateRow(number, 7, 0.0, 0.0, 10.0, 10.0, "credit_card", Home(), None, None).Ok?;
    assert !Store.NumberTaken(db.orders, number);
  }

  /** With the quantities validated first, the same request is refused and
      nothing is written. */
  lemma ZeroQuantityRefusedWhenValidated(number: string)
    ensures PlaceOrder(ExampleDb(), 7, ZeroQuantityRequest(), 1, number) == Reply(ExampleDb(), Err(InvalidQuantity))
  {
  }
}

=== FILE: inventory.dfy ===
/** Stock movements over the lines of an order: the checkout decrements
    each line's perfume with the clamped `updateStock(-quantity)`, and a
    cancellation adds each quantity back with `updateStock(quantity)`,
    skipping perfumes that no longer exist. */
module Inventory {
  import Catalog
  import OrderItems

  type Products = map<Catalog.PerfumeId, Catalog.Perfume>

  function Max0(x: int): int {
    if x > 0 then x else 0
  }

  /** Every stored stock is non-negative. */
  predicate StocksNonNegative(products: Products) {
    forall p :: p in products ==> products[p].stock >= 0
  }

  /** Every line orders a non-negative quantity. */
  predicate NonNegativeQuantities(items: seq<OrderItems.OrderItem>) {
    forall i :: 0 <= i < |items| ==> items[i].quantity >= 0
  }

  /** `updateStock(delta)` on perfume `id`, when it exists. */
  function Adjust(products: Products, id: Catalog.PerfumeId, delta: int): (r: Products)
    ensures r.Keys == products.Keys
  {
    if id in products then products[id := Catalog.UpdateStock(products[id], delta)] else products
  }

  /** The cancellation loop: each line's quantity goes back to its perfume. */
  function Restock(products: Products, items: seq<OrderItems.OrderItem>): (r: Products)
    ensures r.Keys == products.Keys
    decreases |items|
  {
    if |items| == 0 then products
    else Restock(Adjust(products, items[0].perfume, items[0].quantity), items[1..])
  }

  /** The checkout loop: each line's quantity is taken off its perfume. */
  function Withdraw(products: Products, items: seq<OrderItems.OrderItem>): (r: Products)
    ensures r.Keys == products.Keys
    decreases |items|
  {
    if |items| == 0 then products
    else Withdraw(Adjust(products, items[0].perfume, -items[0].quantity), items[1..])
  }

  /** Restocking adds to every existing perfume exactly the units the lines
      order of it, and changes nothing else. */
  lemma {:induction false} RestockAdds(products: Products, items: seq<OrderItems.OrderItem>)
    requires StocksNonNegative(products) && NonNegativeQuantities(items)
    ensures Restock(products, items).Keys == products.Keys
    ensures forall p :: p in products ==>
              Restock(products, items)[p] == products[p].(stock := products[p].stock + OrderItems.Ordered(items, p))
    decreases |items|
  {
    if |items| > 0 {
      var next := Adjust(products, items[0].perfume, items[0].quantity);
      RestockAdds(next, items[1..]);
    }
  }

  /** Withdrawing leaves every existing perfume with its stock less the
      units ordered of it, clamped at zero: successive clamped decrements
      add up to one.  Nothing else changes. */
  lemma {:induction false} WithdrawClamps(products: Products, items: seq<OrderItems.OrderItem>)
    requires StocksNonNegative(products) && NonNegativeQuantities(items)
    ensures Withdraw(products, items).Keys == products.Keys
    ensures forall p :: p in products ==>
              Withdraw(products, items)[p] == products[p].(stock := Max0(products[p].stock - OrderItems.Ordered(items, p)))
    decreases |items|
  {
    if |items| > 0 {
      var next := Adjust(products, items[0].perfume, -items[0].quantity);
      WithdrawClamps(next, items[1..]);
      forall p | p in products
        ensures Withdraw(products, items)[p] == products[p].(stock := Max0(products[p].stock - OrderItems.Ordered(items, p)))
      {
        OrderItems.OrderedNonNegative(items[1..], p);
      }
    }
  }

  /** When no perfume is ordered beyond its stock, nothing is clamped and a
      restock of the same lines gives back the catalog exactly. */
  lemma RestockUndoesWithdraw(products: Products, items: seq<OrderItems.OrderItem>)
    requires StocksNonNegative(products) && NonNegativeQuantities(items)
    requires forall p :: p in products ==> OrderItems.Ordered(items, p) <= products[p].stock
    ensures Restock(Withdraw(products, items), items) == products
  {
    var w := Withdraw(products, items);
    WithdrawClamps(products, items);
    RestockAdds(w, items);
    var r := Restock(w, items);
    forall p | p in products
      ensures r[p] == products[p]
    {
      OrderItems.OrderedNonNegative(items, p);
    }
  }

  /** Withdrawing keeps every perfume valid: only stocks move, and they
      stay non-negative. */
  lemma WithdrawKeepsCatalogValid(products: Products, items: seq<OrderItems.OrderItem>)
    requires Catalog.ValidCatalog(products) && NonNegativeQuantities(items)
    ensures Catalog.ValidCatalog(Withdraw(products, items))
  {
    WithdrawClamps(products, items);
  }

  /** Restocking keeps every perfume valid. */
  lemma RestockKeepsCatalogValid(products: Products, items: seq<OrderItems.OrderItem>)
    requires Catalog.ValidCatalog(products) && NonNegativeQuantities(items)
    ensures Catalog.ValidCatalog(Restock(products, items))
  {
    RestockAdds(products, items);
    forall p | p in products
      ensures OrderItems.Ordered(items, p) >= 0
    {
      OrderItems.OrderedNonNegative(items, p);
    }
  }
}

=== FILE: order.dfy ===
/** The order record: its status and payment enumerations, the
    shipping-address validator, the row `createOrder` inserts, and the
    lifecycle methods `canBeCancelled`, `canBeRefunded` and `updateStatus`. */
module Orders {
  import opened Results
  import Catalog
  import CartModel
  import OrderItems

  type OrderId = nat

  /** An opaque clock reading, as `new Date()` would give. */
  type Clock = nat

  /** The seven values of the `status` column. */
  datatype Status = Pending | Confirmed | Processing | Shipped | Delivered | Cancelled | Refunded

  datatype PaymentStatus = PaymentPending | Paid | PaymentFailed | PaymentRefunded

  datatype PaymentMethod = CreditCard | DebitCard | PayPal | CashOnDelivery

  /** The text of each status as stored and as clients send it. */
  function StatusName(s: Status): string {
    match s
    case Pending => "pending"
    case Confirmed => "confirmed"
    case Processing => "processing"
    case Shipped => "shipped"
    case Delivered => "delivered"
    case Cancelled => "cancelled"
    case Refunded => "refunded"
  }

  /** The whitelist check of `updateOrderStatus`: the text is accepted exactly
      when it names one of the seven statuses. */
  function ParseStatus(text: string): (r: Option<Status>)
    ensures r.Some? ==> StatusName(r.value) == text
    ensures r.None? ==> forall s: Status :: StatusName(s) != text
  {
    if text == "pending" then Some(Pending)
    else if text == "confirmed" then Some(Confirmed)
    else if text == "processing" then Some(Processing)
    else if text == "shipped" then Some(Shipped)
    else if text == "delivered" then Some(Delivered)
    else if text == "cancelled" then Some(Cancelled)
    else if text == "refunded" then Some(Refunded)
    else None
  }

  /** Every status name is accepted and read back as that status. */
  lemma ParseStatusName(s: Status)
    ensures ParseStatus(StatusName(s)) == Some(s)
  {
  }

  /** The text of each payment method as stored and as clients send it. */
  function PaymentMethodName(m: PaymentMethod): string {
    match m
    case CreditCard => "credit_card"
    case DebitCard => "debit_card"
    case PayPal => "paypal"
    case CashOnDelivery => "cash_on_delivery"
  }

  /** The `paymentMethod` column's enumeration; any other text fails the
      column's validation.  An accepted text becomes the method it names. */
  function ParsePaymentMethod(text: string): (r: Option<PaymentMethod>)
    ensures r.Some? <==> text in ["credit_card", "debit_card", "paypal", "cash_on_delivery"]
    ensures r.Some? ==> PaymentMethodName(r.value) == text
    ensures r.None? ==> forall m: PaymentMethod :: PaymentMethodName(m) != text
  {
    if text == "credit_card" then Some(CreditCard)
    else if text == "debit_card" then Some(DebitCard)
    else if text == "paypal" then Some(PayPal)
    else if text == "cash_on_delivery" then Some(CashOnDelivery)
    else None
  }

  /** Every payment method's name is accepted and read back as that method. */
  lemma ParsePaymentMethodName(m: PaymentMethod)
    ensures ParsePaymentMethod(PaymentMethodName(m)) == Some(m)
  {
  }

  /** The characters JavaScript's `trim()` removes: white space and line
      terminators. */
  predicate IsJsWhitespace(c: char) {
    var n := c as int;
    n == 0x09 || n == 0x0A || n == 0x0B || n == 0x0C || n == 0x0D || n == 0x20
    || n == 0xA0 || n == 0x1680 || (0x2000 <= n <= 0x200A) || n == 0x2028 || n == 0x2029
    || n == 0x202F || n == 0x205F || n == 0x3000 || n == 0xFEFF
  }

  function TrimStart(s: string): (r: string)
    ensures |r| <= |s|
    ensures r != "" ==> !IsJsWhitespace(r[0])
    decreases |s|
  {
    if |s| > 0 && IsJsWhitespace(s[0]) then TrimStart(s[1..]) else s
  }

  function TrimEnd(s: string): (r: string)
    ensures |r| <= |s|
    decreases |s|
  {
    if |s| > 0 && IsJsWhitespace(s[|s| - 1]) then TrimEnd(s[..|s| - 1]) else s
  }

  /** `s.trim()`. */
  function Trim(s: string): string {
    TrimEnd(TrimStart(s))
  }

  /** Only white space, or nothing at all. */
  predicate Blank(s: string) {
    forall i :: 0 <= i < |s| ==> IsJsWhitespace(s[i])
  }

  lemma {:induction false} TrimStartEmpty(s: string)
    ensures TrimStart(s) == "" <==> Blank(s)
    decreases |s|
  {
    if |s| > 0 && IsJsWhitespace(s[0]) {
      TrimStartEmpty(s[1..]);
      assert Blank(s) <==> Blank(s[1..]) by {
        if Blank(s[1..]) {
          forall i | 0 <= i < |s|
            ensures IsJsWhitespace(s[i])
          {
            if i > 0 {
              assert s[i] == s[1..][i - 1];
            }
          }
        }
      }
    }
  }

  lemma {:induction false} TrimEndEmpty(s: string)
    ensures TrimEnd(s) == "" <==> Blank(s)
    decreases |s|
  {
    if |s| > 0 && IsJsWhitespace(s[|s| - 1]) {
      TrimEndEmpty(s[..|s| - 1]);
      assert Blank(s) <==> Blank(s[..|s| - 1]) by {
        if Blank(s[..|s| - 1]) {
          forall i | 0 <= i < |s|
            ensures IsJsWhitespace(s[i])
          {
            if i < |s| - 1 {
              assert s[i] == s[..|s| - 1][i];
            }
          }
        }
      }
    }
  }

  /** `trim()` leaves nothing exactly when the string is blank. */
  lemma TrimEmptyIffBlank(s: string)
    ensures Trim(s) == "" <==> Blank(s)
  {
    TrimStartEmpty(s);
    TrimEndEmpty(TrimStart(s));
  }

  /** A postal address as the request carries it; an absent key is `None`. */
  datatype Address = Address(
    street: Option<string>,
    city: Option<string>,
    postalCode: Option<string>,
    country: Option<string>)

  /** `!value.field || value.field.trim() === ''`. */
  predicate FieldMissing(f: Option<string>) {
    f.None? || f.value == "" || Trim(f.value) == ""
  }

  /** The `isValidAddress` validator of `shippingAddress`. */
  predicate IsValidAddress(a: Address) {
    !(FieldMissing(a.street) || FieldMissing(a.city) || FieldMissing(a.postalCode) || FieldMissing(a.country))
  }

  /** A field passes when it is present and holds some character that is
      not white space. */
  predicate FieldPresent(f: Option<string>) {
    f.Some? && exists i :: 0 <= i < |f.value| && !IsJsWhitespace(f.value[i])
  }

  /** The validator accepts an address exactly when each of the four fields
      is present and not blank. */
  lemma ValidAddressIff(a: Address)
    ensures IsValidAddress(a) <==>
            FieldPresent(a.street) && FieldPresent(a.city) && FieldPresent(a.postalCode) && FieldPresent(a.country)
  {
    forall f | f in [a.street, a.city, a.postalCode, a.country]
      ensures FieldMissing(f) <==> !FieldPresent(f)
    {
      if f.Some? {
        TrimEmptyIffBlank(f.value);
      }
    }
  }

  datatype Order = Order(
    orderNumber: string,
    user: CartModel.UserId,
    status: Status,
    subtotal: real,
    taxAmount: real,
    shippingAmount: real,
    discountAmount: real,
    totalAmount: real,
    paymentMethod: PaymentMethod,
    paymentStatus: PaymentStatus,
    shippingAddress: Address,
    billingAddress: Option<Address>,
    notes: Option<string>,
    deliveredAt: Option<Clock>,
    cancelledAt: Option<Clock>,
    cancellationReason: Option<string>,
    items: seq<OrderItems.OrderItem>)

  /** The monetary columns' `min: 0` validators. */
  predicate AmountsNonNegative(o: Order) {
    o.subtotal >= 0.0 && o.taxAmount >= 0.0 && o.shippingAmount >= 0.0
    && o.discountAmount >= 0.0 && o.totalAmount >= 0.0
  }

  /** What every stored order satisfies: amounts and lines pass their
      validators. */
  predicate ValidOrder(o: Order) {
    && AmountsNonNegative(o)
    && forall i :: 0 <= i < |o.items| ==> OrderItems.Valid(o.items[i])
  }

  /** The row `createOrder` asks `Order.create` to insert, before any line is
      added: status and payment status pending, no discount, the billing
      address defaulting to the shipping address, no timestamps.  The
      model's validators reject an incomplete shipping address, an unknown
      payment method and negative amounts. */
  function CreateRow(number: string, user: CartModel.UserId, subtotal: real, tax: real, shipping: real,
                     total: real, paymentMethod: string, shippingAddress: Address,
                     billingAddress: Option<Address>, notes: Option<string>): (r: Result<Order>)
    ensures r.Ok? <==> IsValidAddress(shippingAddress) && ParsePaymentMethod(paymentMethod).Some?
                       && subtotal >= 0.0 && tax >= 0.0 && shipping >= 0.0 && total >= 0.0
    ensures r.Err? ==> r.error == ValidationFailed
    ensures r.Ok? ==> ValidOrder(r.value) && r.value.items == []
    ensures r.Ok? ==> r.value.status == Pending && r.value.paymentStatus == PaymentPending
    ensures r.Ok? ==> r.value.billingAddress == Some(billingAddress.GetOr(shippingAddress))
    ensures r.Ok? ==> r.value.orderNumber == number && r.value.user == user
    ensures r.Ok? ==> r.value.subtotal == subtotal && r.value.taxAmount == tax
                      && r.value.shippingAmount == shipping && r.value.totalAmount == total
    ensures r.Ok? ==> r.value.shippingAddress == shippingAddress && r.value.notes == notes
                      && PaymentMethodName(r.value.paymentMethod) == paymentMethod
    ensures r.Ok? ==> r.value.discountAmount == 0.0 && r.value.deliveredAt.None?
                      && r.value.cancelledAt.None? && r.value.cancellationReason.None?
  {
    if !IsValidAddress(shippingAddress) then Err(ValidationFailed)
    else match ParsePaymentMethod(paymentMethod)
      case None => Err(ValidationFailed)
      case Some(pm) =>
        if subtotal < 0.0 || tax < 0.0 || shipping < 0.0 || total < 0.0 then Err(ValidationFailed)
        else Ok(Order(number, user, Pending, subtotal, tax, shipping, 0.0, total, pm, PaymentPending,
                      shippingAddress, Some(billingAddress.GetOr(shippingAddress)), notes,
                      None, None, None, []))
  }

  /** `canBeCancelled()`. */
  predicate CanBeCancelled(o: Order) {
    o.status == Pending || o.status == Confirmed
  }

  /** `canBeRefunded()`. */
  predicate CanBeRefunded(o: Order) {
    o.status == Delivered && o.paymentStatus == Paid
  }

  /** No order is both cancellable and refundable. */
  lemma NeverCancellableAndRefundable(o: Order)
    ensures !(CanBeCancelled(o) && CanBeRefunded(o))
  {
  }

  /** JavaScript truthiness of the optional `reason` argument. */
  predicate Truthy(reason: Option<string>) {
    reason.Some? && reason.value != ""
  }

  /** `updateStatus(newStatus, reason)`: the status always becomes
      `newStatus`; cancelling stamps `cancelledAt` and stores a truthy
      reason, delivering stamps `deliveredAt`; nothing else changes. */
  function UpdateStatus(o: Order, newStatus: Status, reason: Option<string>, now: Clock): (r: Order)
    ensures r.status == newStatus
    ensures r == o.(status := newStatus, cancelledAt := r.cancelledAt, deliveredAt := r.deliveredAt,
                    cancellationReason := r.cancellationReason)
    ensures newStatus == Cancelled ==>
              && r.cancelledAt == Some(now)
              && r.deliveredAt == o.deliveredAt
              && r.cancellationReason == (if Truthy(reason) then reason else o.cancellationReason)
    ensures newStatus == Delivered ==>
              r.deliveredAt == Some(now) && r.cancelledAt == o.cancelledAt && r.cancellationReason == o.cancellationReason
    ensures newStatus != Cancelled && newStatus != Delivered ==> r == o.(status := newStatus)
    ensures ValidOrder(o) ==> ValidOrder(r)
  {
    if newStatus == Cancelled then
      o.(status := newStatus, cancelledAt := Some(now),
         cancellationReason := if Truthy(reason) then reason else o.cancellationReason)
    else if newStatus == Delivered then
      o.(status := newStatus, deliveredAt := Some(now))
    else
      o.(status := newStatus)
  }

  /** Once cancelled, an order can no longer be cancelled. */
  lemma CancelledIsFinal(o: Order, reason: Option<string>, now: Clock)
    ensures !CanBeCancelled(UpdateStatus(o, Cancelled, reason, now))
    ensures !CanBeRefunded(UpdateStatus(o, Cancelled, reason, now))
  {
  }
}

=== FILE: order_item.dfy ===
/** An order line: quantity, unit price, the computed total and a frozen
    copy of the perfume's display data.  Saving a line runs its column
    validators and then the `beforeSave` hook, which recomputes the total. */
module OrderItems {
  import opened Results
  import Catalog

  /** The perfume's display data as it was when the order was placed. */
  datatype Snapshot = Snapshot(name: string, brand: string, imageUrl: Option<string>, size: int)

  datatype OrderItem = OrderItem(
    perfume: Catalog.PerfumeId,
    quantity: int,
    unitPrice: real,
    totalPrice: real,
    snapshot: Snapshot)

  /** `calculateTotal()`. */
  function CalculateTotal(item: OrderItem): real {
    item.quantity as real * item.unitPrice
  }

  /** What every stored line satisfies: the validators (`quantity` at least
      1, `unitPrice` not negative) and the hook's total. */
  predicate Valid(item: OrderItem) {
    && item.quantity >= 1
    && item.unitPrice >= 0.0
    && item.totalPrice == CalculateTotal(item)
  }

  /** Saving a line: the validators run first, on the values as given
      (so a negative incoming total is rejected too); then the hook
      replaces `totalPrice` and nothing else. */
  function Save(item: OrderItem): (r: Result<OrderItem>)
    ensures r.Ok? <==> item.quantity >= 1 && item.unitPrice >= 0.0 && item.totalPrice >= 0.0
    ensures r.Err? ==> r.error == ValidationFailed
    ensures r.Ok? ==> Valid(r.value) && r.value.totalPrice >= 0.0
    ensures r.Ok? ==> r.value == item.(totalPrice := r.value.totalPrice)
  {
    if item.quantity < 1 || item.unitPrice < 0.0 || item.totalPrice < 0.0 then Err(ValidationFailed)
    else
      var saved := item.(totalPrice := CalculateTotal(item));
      NonNegativeTotal(saved);
      Ok(saved)
  }

  /** A valid line's total is not negative. */
  lemma NonNegativeTotal(item: OrderItem)
    requires item.quantity >= 1 && item.unitPrice >= 0.0
    ensures CalculateTotal(item) >= 0.0
  {
  }

  /** Saving a saved line again changes nothing: the recomputation is
      idempotent, and `calculateTotal()` agrees with the stored total. */
  lemma SaveIdempotent(item: OrderItem)
    requires Save(item).Ok?
    ensures Save(Save(item).value) == Save(item)
    ensures CalculateTotal(Save(item).value) == Save(item).value.totalPrice
  {
  }

  /** Saving a line that is already valid leaves it as it is. */
  lemma SaveValid(item: OrderItem)
    ensures Valid(item) ==> Save(item) == Ok(item)
  {
    if Valid(item) {
      NonNegativeTotal(item);
    }
  }

  /** The sum of the lines' totals. */
  function SumTotals(items: seq<OrderItem>): real
    decreases |items|
  {
    if |items| == 0 then 0.0 else SumTotals(items[..|items| - 1]) + items[|items| - 1].totalPrice
  }

  /** Units of perfume `p` across the lines. */
  function Ordered(items: seq<OrderItem>, p: Catalog.PerfumeId): int
    decreases |items|
  {
    if |items| == 0 then 0
    else (if items[0].perfume == p then items[0].quantity else 0) + Ordered(items[1..], p)
  }

  /** Lines with non-negative totals have a non-negative sum. */
  lemma {:induction false} SumTotalsNonNegative(items: seq<OrderItem>)
    requires forall i :: 0 <= i < |items| ==> items[i].totalPrice >= 0.0
    ensures SumTotals(items) >= 0.0
    decreases |items|
  {
    if |items| > 0 {
      SumTotalsNonNegative(items[..|items| - 1]);
    }
  }

  /** Lines of positive quantity order no negative amount of anything. */
  lemma {:induction false} OrderedNonNegative(items: seq<OrderItem>, p: Catalog.PerfumeId)
    requires forall i :: 0 <= i < |items| ==> items[i].quantity >= 0
    ensures Ordered(items, p) >= 0
    decreases |items|
  {
    if |items| > 0 {
      OrderedNonNegative(items[1..], p);
    }
  }
}

=== FILE: order_lifecycle.dfy ===
/** The order handlers after checkout: the owner-scoped lookup of
    `getOrderById` and `cancelOrder`, the cancellation with its restock, and
    the administrator's `updateOrderStatus`. */
module Lifecycle {
  import opened Results
  import Catalog
  import CartModel
  import OrderItems
  import Inventory
  import Orders
  import Store
  import Checkout

  /** `req.user.role`: only `admin` widens the lookups. */
  datatype Role = Admin | Customer

  /** The lookup both `getOrderById` and `cancelOrder` make: an
      administrator finds any order, anyone else only their own. */
  function FindOrder(orders: map<Orders.OrderId, Orders.Order>, id: Orders.OrderId,
                     u: CartModel.UserId, role: Role): (r: Result<Orders.Order>)
    ensures r.Ok? <==> id in orders && (role == Admin || orders[id].user == u)
    ensures r.Ok? ==> r.value == orders[id]
    ensures r.Err? ==> r.error == OrderNotFound
  {
    if id in orders && (role == Admin || orders[id].user == u) then Ok(orders[id]) else Err(OrderNotFound)
  }

  /** A just-placed order is found by its owner and by any administrator,
      and by no other customer. */
  lemma PlacedOrderFoundByOwner(db: Store.Db, user: CartModel.UserId, req: Checkout.Request, id: Orders.OrderId,
                                number: string, v: CartModel.UserId)
    requires id !in db.orders && Catalog.ValidCatalog(db.perfumes)
    requires Checkout.PlaceOrder(db, user, req, id, number).result.Ok?
    ensures var orders := Checkout.PlaceOrder(db, user, req, id, number).db.orders;
            && FindOrder(orders, id, user, Customer) == Ok(orders[id])
            && FindOrder(orders, id, v, Admin) == Ok(orders[id])
            && (v != user ==> FindOrder(orders, id, v, Customer) == Err(OrderNotFound))
  {
    Checkout.PlaceOrderWrites(db, user, req, id, number);
  }

  /** `cancelOrder` answers "not found" exactly when the lookup finds
      nothing, and cancels the very order the lookup finds. */
  lemma CancelUsesFindOrder(db: Store.Db, id: Orders.OrderId, u: CartModel.UserId, role: Role,
                            reason: Option<string>, now: Orders.Clock)
    ensures var r := CancelOrder(db, id, u, role, reason, now);
            && ((r.Err? && r.error == OrderNotFound) <==> FindOrder(db.orders, id, u, role).Err?)
            && (r.Ok? ==> r.value.orders[id]
                          == Orders.UpdateStatus(FindOrder(db.orders, id, u, role).value, Orders.Cancelled, reason, now))
  {
  }

  /** `cancelOrder`: an order the caller cannot see is not found; one past
      the cancellable statuses is refused; otherwise every line's quantity
      goes back to its perfume (skipping perfumes that no longer exist) and
      the order becomes cancelled. */
  function CancelOrder(db: Store.Db, id: Orders.OrderId, u: CartModel.UserId, role: Role,
                       reason: Option<string>, now: Orders.Clock): (r: Result<Store.Db>)
    ensures (r.Err? && r.error == OrderNotFound) <==> !(id in db.orders && (role == Admin || db.orders[id].user == u))
    ensures (r.Err? && r.error == NotCancellable) <==>
              id in db.orders && (role == Admin || db.orders[id].user == u) && !Orders.CanBeCancelled(db.orders[id])
    ensures r.Ok? <==>
              id in db.orders && (role == Admin || db.orders[id].user == u) && Orders.CanBeCancelled(db.orders[id])
    ensures r.Ok? ==> id in r.value.orders && r.value.orders == db.orders[id := r.value.orders[id]]
    ensures r.Ok? ==> r.value.orders[id] == Orders.UpdateStatus(db.orders[id], Orders.Cancelled, reason, now)
    ensures r.Ok? ==> r.value.cart == db.cart && r.value.perfumes.Keys == db.perfumes.Keys
  {
    match FindOrder(db.orders, id, u, role)
    case Err(e) => Err(e)
    case Ok(o) =>
      if !Orders.CanBeCancelled(o) then Err(NotCancellable)
      else Ok(db.(perfumes := Inventory.Restock(db.perfumes, o.items),
                  orders := db.orders[id := Orders.UpdateStatus(o, Orders.Cancelled, reason, now)]))
  }

  /** The lines of a valid order ask for at least one unit each, so none
      asks for a negative quantity. */
  lemma StoredQuantitiesNonNegative(o: Orders.Order)
    requires Orders.ValidOrder(o)
    ensures Inventory.NonNegativeQuantities(o.items)
  {
    forall i | 0 <= i < |o.items|
      ensures o.items[i].quantity >= 0
    {
      assert OrderItems.Valid(o.items[i]);
    }
  }

  /** A cancellation gives back to every existing perfume exactly the units
      the order held of it, and changes nothing else in the catalog. */
  lemma CancelRestocks(db: Store.Db, id: Orders.OrderId, u: CartModel.UserId, role: Role,
                       reason: Option<string>, now: Orders.Clock)
    requires Store.Valid(db) && CancelOrder(db, id, u, role, reason, now).Ok?
    ensures var after := CancelOrder(db, id, u, role, reason, now).value.perfumes;
            forall p :: p in db.perfumes ==>
              after[p] == db.perfumes[p].(stock := db.perfumes[p].stock + OrderItems.Ordered(db.orders[id].items, p))
  {
    StoredQuantitiesNonNegative(db.orders[id]);
    Inventory.RestockAdds(db.perfumes, db.orders[id].items);
  }

  /** A refused cancellation changes nothing: no stock moves and the status
      stays. */
  lemma CancelRefusedChangesNothing(db: Store.Db, id: Orders.OrderId, u: CartModel.UserId, role: Role,
                                    reason: Option<string>, now: Orders.Clock)
    requires id in db.orders && (role == Admin || db.orders[id].user == u)
    requires !Orders.CanBeCancelled(db.orders[id])
    ensures CancelOrder(db, id, u, role, reason, now) == Err(NotCancellable)
  {
  }

  /** Cancelling twice: the second request is refused. */
  lemma SecondCancelRefused(db: Store.Db, id: Orders.OrderId, u: CartModel.UserId, role: Role,
                            reason: Option<string>, now: Orders.Clock, reason2: Option<string>, later: Orders.Clock)
    requires CancelOrder(db, id, u, role, reason, now).Ok?
    ensures CancelOrder(CancelOrder(db, id, u, role, reason, now).value, id, u, role, reason2, later) == Err(NotCancellable)
  {
    Orders.CancelledIsFinal(db.orders[id], reason, now);
  }

  /** A cancellation keeps every constraint of the database. */
  lemma CancelKeepsValid(db: Store.Db, id: Orders.OrderId, u: CartModel.UserId, role: Role,
                         reason: Option<string>, now: Orders.Clock)
    requires Store.Valid(db) && CancelOrder(db, id, u, role, reason, now).Ok?
    ensures Store.Valid(CancelOrder(db, id, u, role, reason, now).value)
  {
    var o := db.orders[id];
    StoredQuantitiesNonNegative(o);
    Inventory.RestockKeepsCatalogValid(db.perfumes, o.items);
    SameNumberKeepsUnique(db.orders, id, Orders.UpdateStatus(o, Orders.Cancelled, reason, now));
  }

  /** Replacing an order by one with the same number keeps the numbers
      unique. */
  lemma SameNumberKeepsUnique(orders: map<Orders.OrderId, Orders.Order>, id: Orders.OrderId, o: Orders.Order)
    requires Store.UniqueNumbers(orders) && id in orders && o.orderNumber == orders[id].orderNumber
    ensures Store.UniqueNumbers(orders[id := o])
  {
    var r := orders[id := o];
    forall a, b | a in r && b in r && a != b
      ensures r[a].orderNumber != r[b].orderNumber
    {
      assert r[a].orderNumber == orders[a].orderNumber && r[b].orderNumber == orders[b].orderNumber;
    }
  }

  /** Cancelling an order right after placing it gives every perfume its
      stock back, provided no perfume was ordered beyond its stock (then
      no decrement was clamped). */
  lemma CancelUndoesPlaceOrder(db: Store.Db, user: CartModel.UserId, req: Checkout.Request, id: Orders.OrderId,
                               number: string, reason: Option<string>, now: Orders.Clock)
    requires id !in db.orders && Store.Valid(db)
    requires Checkout.PlaceOrder(db, user, req, id, number).result.Ok?
    requires forall p :: p in db.perfumes ==>
               OrderItems.Ordered(Checkout.PlaceOrder(db, user, req, id, number).db.orders[id].items, p)
               <= db.perfumes[p].stock
    ensures var placed := Checkout.PlaceOrder(db, user, req, id, number).db;
            && CancelOrder(placed, id, user, Customer, reason, now).Ok?
            && CancelOrder(placed, id, user, Customer, reason, now).value.perfumes == db.perfumes
  {
    var placed := Checkout.PlaceOrder(db, user, req, id, number).db;
    var plan := Checkout.Prepare(db, user, req, number).value;
    Checkout.PlaceOrderWrites(db, user, req, id, number);
    assert placed.orders[id] == plan.row.(items := plan.items);
    assert placed.perfumes == Inventory.Withdraw(db.perfumes, plan.items);
    Inventory.RestockUndoesWithdraw(db.perfumes, plan.items);
  }

  /** `updateOrderStatus`: an unknown order is not found; text that names
      none of the seven statuses is refused; otherwise the order takes the
      named status through `updateStatus`.  No stock moves, whatever the
      new status, and no transition rule is checked. */
  function UpdateOrderStatus(db: Store.Db, id: Orders.OrderId, text: string, reason: Option<string>,
                             now: Orders.Clock): (r: Result<Store.Db>)
    ensures (r.Err? && r.error == OrderNotFound) <==> id !in db.orders
    ensures (r.Err? && r.error == InvalidStatus) <==> id in db.orders && forall s: Orders.Status :: Orders.StatusName(s) != text
    ensures r.Ok? ==> id in r.value.orders && r.value.orders == db.orders[id := r.value.orders[id]]
    ensures r.Ok? <==> id in db.orders && exists s: Orders.Status :: Orders.StatusName(s) == text
    ensures r.Ok? ==> Orders.StatusName(r.value.orders[id].status) == text
    ensures r.Ok? ==>
              Orders.ParseStatus(text).Some?
              && r.value.orders[id] == Orders.UpdateStatus(db.orders[id], Orders.ParseStatus(text).value, reason, now)
    ensures r.Ok? ==> r.value.perfumes == db.perfumes && r.value.cart == db.cart
  {
    if id !in db.orders then Err(OrderNotFound)
    else match Orders.ParseStatus(text)
      case None => Err(InvalidStatus)
      case Some(s) =>
        Orders.ParseStatusName(s);
        Ok(db.(orders := db.orders[id := Orders.UpdateStatus(db.orders[id], s, reason, now)]))
  }

  /** A status update keeps every constraint of the database. */
  lemma UpdateOrderStatusKeepsValid(db: Store.Db, id: Orders.OrderId, text: string, reason: Option<string>,
                                    now: Orders.Clock)
    requires Store.Valid(db) && UpdateOrderStatus(db, id, text, reason, now).Ok?
    ensures Store.Valid(UpdateOrderStatus(db, id, text, reason, now).value)
  {
    var s := Orders.ParseStatus(text).value;
    SameNumberKeepsUnique(db.orders, id, Orders.UpdateStatus(db.orders[id], s, reason, now));
  }
}

=== FILE: order_number.dfy ===
/** Human-readable order numbers, `ORD-<timestamp>-<ddd>`: the millisecond
    clock in decimal, then a random value below 1000 padded with zeros to
    three digits.  The clock and the random value are parameters. */
module OrderNumbers {
  import opened Results

  predicate IsDigit(c: char) {
    '0' <= c <= '9'
  }

  predicate AllDigits(s: string) {
    forall i :: 0 <= i < |s| ==> IsDigit(s[i])
  }

  function DigitValue(c: char): nat
    requires IsDigit(c)
  {
    c as int - '0' as int
  }

  function DigitChar(d: nat): (c: char)
    requires d < 10
    ensures IsDigit(c) && DigitValue(c) == d
  {
    ('0' as int + d) as char
  }

  /** `n.toString()` for a non-negative integer: its decimal digits, with no
      leading zero. */
  function Decimal(n: nat): (s: string)
    ensures |s| >= 1 && AllDigits(s)
    ensures |s| > 1 ==> s[0] != '0'
    decreases n
  {
    if n < 10 then [DigitChar(n)] else Decimal(n / 10) + [DigitChar(n % 10)]
  }

  /** The number a string of digits denotes. */
  function ValueOf(s: string): nat
    requires AllDigits(s)
    decreases |s|
  {
    if |s| == 0 then 0 else ValueOf(s[..|s| - 1]) * 10 + DigitValue(s[|s| - 1])
  }

  /** Reading back the decimal digits of `n` gives `n`. */
  lemma {:induction false} DecimalRoundTrip(n: nat)
    ensures ValueOf(Decimal(n)) == n
    decreases n
  {
    if n >= 10 {
      DecimalRoundTrip(n / 10);
      var s := Decimal(n);
      assert s[..|s| - 1] == Decimal(n / 10);
    }
  }

  /** Numbers below 1000 have at most three digits. */
  lemma DecimalBelowThousand(n: nat)
    requires n < 1000
    ensures |Decimal(n)| <= 3
  {
    if n >= 10 {
      var m := n / 10;
      if m >= 10 {
        assert |Decimal(m / 10)| == 1;
        assert |Decimal(m)| == 2;
      }
      assert |Decimal(n)| == |Decimal(m)| + 1;
    }
  }

  function Pow10(k: nat): nat
  {
    if k == 0 then 1 else 10 * Pow10(k - 1)
  }

  /** A string of `k` digits denotes a number below 10^k. */
  lemma {:induction false} ValueOfBound(s: string)
    requires AllDigits(s)
    ensures ValueOf(s) < Pow10(|s|)
    decreases |s|
  {
    if |s| > 0 {
      ValueOfBound(s[..|s| - 1]);
    }
  }

  /** Leading zeros do not change the value of a digit string. */
  lemma {:induction false} LeadingZeros(k: nat, s: string)
    requires AllDigits(s)
    ensures AllDigits(seq(k, _ => '0') + s)
    ensures ValueOf(seq(k, _ => '0') + s) == ValueOf(s)
    decreases |s|
  {
    var z: string := seq(k, _ => '0');
    if |s| == 0 {
      assert z + s == z;
      ZerosValue(k);
    } else {
      var t := z + s;
      assert t[..|t| - 1] == z + s[..|s| - 1];
      LeadingZeros(k, s[..|s| - 1]);
    }
  }

  /** A string of zeros denotes 0. */
  lemma {:induction false} ZerosValue(k: nat)
    ensures AllDigits(seq(k, _ => '0'))
    ensures ValueOf(seq(k, _ => '0')) == 0
    decreases k
  {
    if k > 0 {
      var z: string := seq(k, _ => '0');
      assert z[..k - 1] == seq(k - 1, _ => '0');
      ZerosValue(k - 1);
    }
  }

  /** `padStart(3, '0')`: zeros in front up to three characters. */
  function PadStart3(s: string): (r: string)
    ensures |s| >= 3 ==> r == s
    ensures |s| < 3 ==> r == seq(3 - |s|, _ => '0') + s
  {
    if |s| >= 3 then s else seq(3 - |s|, _ => '0') + s
  }

  /** The shape `ORD-\d+-\d{3}`. */
  predicate WellFormed(s: string) {
    && |s| >= 9
    && s[..4] == "ORD-"
    && s[|s| - 4] == '-'
    && AllDigits(s[4..|s| - 4])
    && AllDigits(s[|s| - 3..])
  }

  /** The clock reading and the random value an order number was made from. */
  datatype Parts = Parts(timestamp: nat, random: nat)

  /** Reads an order number back into its parts. */
  function Parse(s: string): (r: Option<Parts>)
    ensures r.Some? <==> WellFormed(s)
    ensures r.Some? ==> r.value.random < 1000
  {
    if WellFormed(s) then
      var tail := s[|s| - 3..];
      ValueOfBound(tail);
      assert |tail| == 3;
      assert Pow10(3) == 1000 by {
        assert Pow10(1) == 10;
        assert Pow10(2) == 100;
      }
      Some(Parts(ValueOf(s[4..|s| - 4]), ValueOf(tail)))
    else None
  }

  /** The number `createOrder` and the `beforeCreate` hook generate. */
  function Format(timestamp: nat, random: nat): (s: string)
    requires random < 1000
    ensures WellFormed(s)
  {
    var digits := Decimal(timestamp);
    var suffix := PadStart3(Decimal(random));
    DecimalBelowThousand(random);
    LeadingZeros(3 - |Decimal(random)|, Decimal(random));
    var s := "ORD-" + digits + "-" + suffix;
    assert |suffix| == 3;
    assert |s| == |digits| + 8;
    assert s[..4] == "ORD-";
    assert forall k :: 0 <= k < |digits| ==> s[4 + k] == digits[k];
    assert s[4..|s| - 4] == digits;
    assert forall k :: 0 <= k < 3 ==> s[|s| - 3 + k] == suffix[k];
    assert s[|s| - 3..] == suffix;
    s
  }

  /** Parsing a generated number recovers the clock reading and the random
      value it was made from. */
  lemma ParseFormat(timestamp: nat, random: nat)
    requires random < 1000
    ensures Parse(Format(timestamp, random)) == Some(Parts(timestamp, random))
  {
    var s := Format(timestamp, random);
    var digits := Decimal(timestamp);
    var suffix := PadStart3(Decimal(random));
    DecimalBelowThousand(random);
    assert s == "ORD-" + digits + "-" + suffix;
    assert s[4..|s| - 4] == digits;
    assert s[|s| - 3..] == suffix;
    DecimalRoundTrip(timestamp);
    DecimalRoundTrip(random);
    LeadingZeros(3 - |Decimal(random)|, Decimal(random));
  }

  /** Two generated numbers are equal only when made from the same clock
      reading and the same random value. */
  lemma FormatInjective(t1: nat, r1: nat, t2: nat, r2: nat)
    requires r1 < 1000 && r2 < 1000
    requires Format(t1, r1) == Format(t2, r2)
    ensures t1 == t2 && r1 == r2
  {
    ParseFormat(t1, r1);
    ParseFormat(t2, r2);
  }

  /** The `beforeCreate` hook: a number already present (not null and not
      empty, both falsy) is kept; otherwise one is generated. */
  function AssignOrderNumber(existing: Option<string>, timestamp: nat, random: nat): (r: string)
    requires random < 1000
    ensures existing.Some? && existing.value != "" ==> r == existing.value
    ensures existing.None? || existing.value == "" ==> Parse(r) == Some(Parts(timestamp, random))
  {
    if existing.Some? && existing.value != "" then existing.value
    else
      ParseFormat(timestamp, random);
      Format(timestamp, random)
  }
}

=== FILE: perfume.dfy ===
/** The catalog: a perfume's price and stock, and the two instance methods
    the order rules rely on, `isInStock` and the clamped `updateStock`. */
module Catalog {
  import opened Results

  type PerfumeId = nat

  /** The columns of a perfume that the cart and order rules read.  Notes,
      category, ratings and the other descriptive columns play no part and
      are not carried. */
  datatype Perfume = Perfume(
    name: string,
    brand: string,
    price: real,
    originalPrice: Option<real>,
    size: int,
    imageUrl: Option<string>,
    stock: int,
    isActive: bool)

  /** The column validators the rules depend on: prices and stock are never
      negative (`min: 0`). */
  predicate Valid(p: Perfume) {
    && p.price >= 0.0
    && (p.originalPrice.Some? ==> p.originalPrice.value >= 0.0)
    && p.stock >= 0
  }

  /** Every stored perfume satisfies its validators. */
  predicate ValidCatalog(perfumes: map<PerfumeId, Perfume>) {
    forall id :: id in perfumes ==> Valid(perfumes[id])
  }

  predicate IsInStock(p: Perfume) {
    p.stock > 0
  }

  /** `updateStock(quantity)`: `quantity` is a signed change, and the new
      stock is clamped at zero; no other column changes. */
  function UpdateStock(p: Perfume, quantity: int): (r: Perfume)
    ensures r.stock >= 0
    ensures r == p.(stock := r.stock)
    ensures p.stock >= 0 && quantity >= 0 ==> r.stock == p.stock + quantity
    ensures -p.stock <= quantity < 0 ==> p.stock - r.stock == -quantity
    ensures p.stock + quantity < 0 ==> r.stock == 0
  {
    p.(stock := if p.stock + quantity > 0 then p.stock + quantity else 0)
  }

  /** Whether a perfume is in stock after an update depends only on the
      unclamped sum. */
  lemma InStockAfterUpdate(p: Perfume, quantity: int)
    ensures IsInStock(UpdateStock(p, quantity)) <==> p.stock + quantity > 0
  {
  }

  /** A sequence of `updateStock` calls, applied left to right. */
  function UpdateStockAll(p: Perfume, deltas: seq<int>): Perfume
    decreases |deltas|
  {
    if |deltas| == 0 then p else UpdateStockAll(UpdateStock(p, deltas[0]), deltas[1..])
  }

  /** Stock stays non-negative after any sequence of updates, and nothing
      but the stock ever changes. */
  lemma {:induction false} StockNeverNegative(p: Perfume, deltas: seq<int>)
    requires Valid(p)
    ensures Valid(UpdateStockAll(p, deltas))
    ensures UpdateStockAll(p, deltas) == p.(stock := UpdateStockAll(p, deltas).stock)
    decreases |deltas|
  {
    if |deltas| > 0 {
      StockNeverNegative(UpdateStock(p, deltas[0]), deltas[1..]);
    }
  }

  /** Two clamped decrements equal one decrement by their sum; two
      increments likewise add up. */
  lemma UpdatesCompose(p: Perfume, a: int, b: int)
    requires p.stock >= 0
    requires (a <= 0 && b <= 0) || (a >= 0 && b >= 0)
    ensures UpdateStock(UpdateStock(p, a), b) == UpdateStock(p, a + b)
  {
  }

  /** JavaScript's `Math.round`: the nearest integer, halves upwards. */
  function RoundHalfUp(x: real): (n: int)
    ensures n as real - 0.5 <= x < n as real + 0.5
  {
    (x + 0.5).Floor
  }

  /** `getDiscountPercentage()`: the saving relative to the original price,
      rounded; zero without an original price (absent or 0, which is falsy)
      or when it does not exceed the current price. */
  function DiscountPercentage(p: Perfume): (r: int)
    ensures p.originalPrice.None? || p.originalPrice.value <= p.price ==> r == 0
    ensures Valid(p) ==> 0 <= r <= 100
    ensures p.originalPrice.Some? && p.originalPrice.value != 0.0 && p.originalPrice.value > p.price ==>
              var saving := (p.originalPrice.value - p.price) / p.originalPrice.value * 100.0;
              r as real - 0.5 <= saving < r as real + 0.5
  {
    match p.originalPrice
    case Some(o) =>
      if o != 0.0 && o > p.price then
        var saving := (o - p.price) / o * 100.0;
        SavingBounds(o, p.price);
        RoundHalfUp(saving)
      else 0
    case None => 0
  }

  /** The relative saving lies in (0, 100] when the current price is not
      negative and below the original one. */
  lemma SavingBounds(original: real, price: real)
    requires original != 0.0 && original > price
    ensures price >= 0.0 ==> 0.0 < (original - price) / original * 100.0 <= 100.0
  {
    if price >= 0.0 {
      var f := (original - price) / original;
      assert f * original == original - price;
      assert 0.0 < f <= 1.0;
    }
  }
}

=== FILE: results.dfy ===
/** Outcomes shared by every part of the model: an optional value, and the
    error kinds a request handler or a model method reports instead of a
    successful result. */
module Results {

  /** A value that may be absent (a nullable column, an optional request field). */
  datatype Option<+T> = None | Some(value: T) {

    /** The value, or `default` when absent (the source's `a || b` on objects). */
    function GetOr(default: T): T {
      match this
      case Some(v) => v
      case None => default
    }
  }

  /** The ways a request or model call ends without success.  The comment on
      each names the response the handlers send for it. */
  datatype Error =
    | EmptyOrder          // 400: an order without items
    | PerfumeNotFound     // 404: no (active) perfume with that id
    | InsufficientStock   // 400: checkout line exceeds the stock
    | OutOfStock          // 400: adding a perfume whose stock is 0
    | ExceedsStock        // 400: cart quantity would exceed the stock
    | CartItemNotFound    // 404, or the error thrown by the cart model
    | OrderNotFound       // 404: no such order visible to the caller
    | NotCancellable      // 400: order status forbids cancelling
    | InvalidStatus       // 400: status outside the enumeration
    | InvalidQuantity     // 400: a checkout line asks for fewer than one unit
    | ValidationFailed    // a column validator rejected a row (500)
    | ServerError         // any other exception: null dereference, key clash (500)

  datatype Result<+T> = Ok(value: T) | Err(error: Error)
}

=== FILE: store.dfy ===
/** The database as plain state: the perfumes, the cart table and the
    orders with their lines, and the constraints every stored row meets. */
module Store {
  import Catalog
  import CartModel
  import Orders

  datatype Db = Db(
    perfumes: map<Catalog.PerfumeId, Catalog.Perfume>,
    cart: CartModel.Cart,
    orders: map<Orders.OrderId, Orders.Order>)

  /** The `unique: true` constraint on `orderNumber`. */
  predicate UniqueNumbers(orders: map<Orders.OrderId, Orders.Order>) {
    forall a, b :: a in orders && b in orders && a != b ==> orders[a].orderNumber != orders[b].orderNumber
  }

  /** Some stored order already carries `number`. */
  predicate NumberTaken(orders: map<Orders.OrderId, Orders.Order>, number: string) {
    exists id :: id in orders && orders[id].orderNumber == number
  }

  /** The column validators, the cart's unique index and foreign key, and
      the unique order numbers. */
  predicate Valid(db: Db) {
    && Catalog.ValidCatalog(db.perfumes)
    && CartModel.Valid(db.cart)
    && CartModel.Stocked(db.cart, db.perfumes)
    && (forall id :: id in db.orders ==> Orders.ValidOrder(db.orders[id]))
    && UniqueNumbers(db.orders)
  }

  /** Inserting an order under a fresh key with a number no stored order
      carries keeps the numbers unique. */
  lemma InsertKeepsNumbersUnique(orders: map<Orders.OrderId, Orders.Order>, id: Orders.OrderId, o: Orders.Order)
    requires UniqueNumbers(orders) && id !in orders && !NumberTaken(orders, o.orderNumber)
    ensures UniqueNumbers(orders[id := o])
  {
    var r := orders[id := o];
    forall a, b | a in r && b in r && a != b
      ensures r[a].orderNumber != r[b].orderNumber
    {
      if a == id {
        assert b in orders;
      } else if b == id {
        assert a in orders;
      }
    }
  }
}
